=== FILE: README.md ===
# vmap tracking core, modelled in Dafny

This project models the logic of the vmap logistics site: the progress-to-stage
derivation shared by the admin editor and the segmented progress bar, the admin
editor's load/preview/save transform, the reseed and consignment-upsert API
routes, the browser-storage credential and session layer of the client portal,
the portal's login and one-time-code routes, the verification page's code
sanitiser and sign-in transition, and the `.env.local` parser of the database
connection script.

Modules, one per component:

| module | file | models |
|---|---|---|
| `Common` | common.dfy | optional values; first-match search (`Array.prototype.find`) |
| `Json` | json.dfy | JSON values, JavaScript truthiness, property reads that throw on `null`, responses |
| `Types` | types.dfy | lib/types.ts plus the consignment, progress and stage records and the status literals |
| `Derivation` | derivation.dfy | `calculateCurrentStage`, `calculateStageStatus`, `getSegmentFillPercent`, `isCurrentStage` |
| `ProgressBar` | progress_bar.dfy | segment and fill classes, display defaults, pulse condition, the rendered segments |
| `AdminEditor` | admin_editor.dfy | editor state, `loadConsignment`, slider, medium buttons, `handleLocationChange`, `getPreviewStages`, `handleSave` |
| `SampleData` | sample_data.dfy | the sample authorization record, client and default consignment |
| `SeedRoute` | seed_route.dfy | `POST /api/admin/seed`, write by write, with failures |
| `ConsignmentRoute` | consignment_route.dfy | `POST /api/admin/consignment`: validation, `_id` removal, time stamp, `$set` upsert |
| `Storage` | storage.dfy | lib/storage.ts: seeding, lookups, session get/set/clear, `validateCredentials` |
| `PortalRoutes` | portal_routes.dfy | `POST /api/portal/login`, `POST /api/portal/verify-otp` |
| `TwoFactor` | two_factor.dfy | the code sanitiser, the redirect on entry, `handleSubmit` |
| `EnvFile` | env_file.dfy | `loadEnv` line parsing and the connection settings of scripts/test-mongodb.mjs |

Modelling choices:

- Progress is an unbounded integer and no function clamps it. The slider only
  produces 0..100, and that is the precondition of `AdminEditor.SetProgress`.
- The segment fill `((p - start) / 25) * 100` is computed as the exact integer
  `4 * (p - start)`.
- `ConsignmentData`, `Stage` and `StageStatus` are not in lib/types.ts. They are
  rebuilt from the seed literal and from the status literals the editor and the
  bar compare against. The stage field `label` is called `title`, because
  `label` is a Dafny keyword.
- Request bodies are `Malformed` (`request.json()` throws) or a parsed JSON
  value. Destructuring a `null` body throws, so the route answers 500.
- The database store behind the upsert route is a map from the
  `consignmentId` value to the document's top-level fields. The editor's
  `getConsignment`/`setConsignment` are not part of this model. They are an
  abstract map from id to record, and the store's yes/no answer is a
  parameter.
- Local storage is a record with one optional slot per key
  (`vma_auth_records`, `vma_clients`, `vma_session`). Session storage's
  `temp_client_id` is an optional string. Time stamps (`now`) are opaque
  inputs.
- On load the editor reads only `progress.totalProgress || 0`
  (app/admin/page.tsx:31). There is no fallback to a top-level
  `progressPercent` field.
- The upsert route validates only the `consignmentId`
  (app/api/admin/consignment/route.ts:9-14). It does not check the stage list
  and does not force four stages: a record keeps whatever stages it was sent
  with.

Two behaviours of the code that the model reproduces and states:

- The progress bar shows a stage's `name`, but seeded stages only carry
  `label`. `RenderSegment` therefore gives them an empty title
  (`ProgressBar.SeededSegmentsUntitled`).
- At progress 25, 50 and 75 the editor's "Stage k Active" label and the
  bar's pulsing segment name different stages
  (`Derivation.CurrentStageVersusCurrentSegment`).

## Model

| member | source | states |
|---|---|---|
| Derivation.CurrentStage | app/admin/page.tsx:67-73 | the active stage is always 1..4; it is the 25-point band holding p below 75, is exactly 4 from 75 up, and is 1 for negative progress |
| Derivation.StatusOf | app/admin/page.tsx:75-81 | COMPLETED iff p >= id*25, IN_PROGRESS iff (id-1)*25 < p < id*25, LOCKED iff p <= (id-1)*25; a band's upper boundary is completed |
| Derivation.SegmentFill | components/SegmentedProgressBar.tsx:13-22 | fill lies in [0,100]; 100 iff p >= id*25; 0 iff p <= (id-1)*25; inside the band fill*25 equals (p-start)*100 |
| Derivation.IsCurrentStage | components/SegmentedProgressBar.tsx:48-52 | a segment is current iff its stage is in progress or the progress sits exactly on the band's upper boundary |
| Derivation.DerivedStatusIsEditorStatus | app/admin/page.tsx:78-80 | the editor only derives COMPLETED, IN_PROGRESS or LOCKED |
| Derivation.CurrentStageMonotone | app/admin/page.tsx:67-73 | the active stage never decreases as progress grows |
| Derivation.MonotoneFront | app/admin/page.tsx:75-81 | along the stage order the statuses read COMPLETED..., at most one IN_PROGRESS, then LOCKED... |
| Derivation.AtMostOneInProgress | app/admin/page.tsx:75-81 | two stages in progress at the same progress are the same stage |
| Derivation.NoInProgressOnBoundary | app/admin/page.tsx:75-81 | at a multiple of 25, or at or below 0, no stage id >= 1 is in progress |
| Derivation.InProgressIsCurrent | app/admin/page.tsx:67-81 | a stage 1..4 that is in progress is the stage the editor reports as active |
| Derivation.FillAgreesWithStatus | components/SegmentedProgressBar.tsx:13-22 | the bar's fill and the editor's status (app/admin/page.tsx:78-80) agree: 100 iff COMPLETED, 0 iff LOCKED, strictly between iff IN_PROGRESS |
| Derivation.FillMonotone | components/SegmentedProgressBar.tsx:13-22 | for a fixed stage the fill never decreases as progress grows |
| Derivation.CurrentHasFill | components/SegmentedProgressBar.tsx:48-52 | the current segment has a positive fill, so the pulse test `active && fillPercent > 0` is just `active` |
| Derivation.ExactlyOneCurrent | components/SegmentedProgressBar.tsx:48-52 | for 0 < p <= 100 exactly one stage, (p+24)/25 in 1..4, is current |
| Derivation.NoCurrentOutsideRange | components/SegmentedProgressBar.tsx:48-52 | for p <= 0 or p > 100 none of stages 1..4 is current |
| Derivation.CurrentStageVersusCurrentSegment | app/admin/page.tsx:67-73 | the editor's active stage is the bar's current segment except at 25, 50 and 75, where the bar keeps stage p/25 and the editor names p/25+1 |
| Derivation.WorkedValues | app/admin/page.tsx:67-81 | at 25 stage 1 is COMPLETED and stage 2 LOCKED, at 26 stage 2 is IN_PROGRESS; stage 2 fills 48 at 37, 0 at 25, 100 at 50; at 100 stage 4 is both COMPLETED and active |
| ProgressBar.SegmentClasses | components/SegmentedProgressBar.tsx:24-30 | the base classes, followed by " opacity-50" exactly for PENDING and by nothing otherwise |
| ProgressBar.MarkerClasses | components/SegmentedProgressBar.tsx:105-107 | the status caption is orange and bold iff PAUSED, green and bold iff ACTIVE, and unstyled for every other status |
| ProgressBar.FillColour | components/SegmentedProgressBar.tsx:32-46 | orange iff PAUSED, gray iff PENDING, green for every other status including IN_PROGRESS and LOCKED |
| ProgressBar.RenderSegment | components/SegmentedProgressBar.tsx:68-112 | the title is the stage's name (empty when absent); the location is the stored one, or "Pending" when empty; a non-empty date shows as stored and a missing or empty one as "Pending"; the fill is the segment fill of the stage id; the pulse is drawn iff the segment is current; the segment and fill classes are those of its status; the caption is the status literal with its marker classes; check mark iff COMPLETED |
| ProgressBar.SeededSegmentsUntitled | components/SegmentedProgressBar.tsx:76 | every stage of the seeded consignment (app/api/admin/seed/route.ts:39-42) is drawn with an empty title, although each has a non-empty label |
| ProgressBar.Render | components/SegmentedProgressBar.tsx:67-116 | one segment per stage in order, each titled by the stage's name, located at its location or "Pending", filled by its stage id, and pulsing iff its stage is current; two pulsing segments belong to the same stage id |
| AdminEditor.Load | app/admin/page.tsx:26-39 | a found record fills the form, with missing progress read as 0, a missing medium read as 'Pending', and one location per stage, keeps the id field and reports "Loaded consignment: <id>"; a miss changes only the message; load keeps the location/stage count invariant |
| AdminEditor.InitialState | app/admin/page.tsx:16-23 | the first render has no record and so no preview, medium 'Pending', four location fields, and is consistent |
| AdminEditor.SetProgress | app/admin/page.tsx:288-293 | the slider sets a progress in 0..100; every other field of the editor is kept |
| AdminEditor.SelectMedium | app/admin/page.tsx:259-262 | the buttons set Air, Sea or Land, never 'Pending'; every other field of the editor is kept |
| AdminEditor.ChangeLocation | app/admin/page.tsx:121-125 | only location i changes; every other field and location is kept |
| AdminEditor.EditedStages | app/admin/page.tsx:101-105 | same stage count; id, label, name and date kept; location from the form by position; the status of stage i is the derived status of position i+1, and these statuses form a monotone front |
| AdminEditor.PreviewStages | app/admin/page.tsx:83-90 | no preview before a record loads; otherwise one previewed stage per loaded stage |
| AdminEditor.SavedRecord | app/admin/page.tsx:96-109 | id and key hint carried over; progress, active stage (derived, 1..4), medium and stamp replaced; the stages are exactly the edited stages |
| AdminEditor.Save | app/admin/page.tsx:92-119 | no record means no effect; a refused write leaves the store and the form alone and only sets the failure message; an accepted one stores the built record under its id, adds no other id, leaves other ids untouched, the editor adopts it and shows "Changes saved successfully"; only the record and message change |
| AdminEditor.PreviewMatchesSave | app/admin/page.tsx:83-105 | the preview shows exactly the stages a save persists |
| AdminEditor.PositionalStatusIsIdStatus | app/admin/page.tsx:101-105 | when stage ids are 1, 2, ... in order, the positional status equals the status of the stage's own id |
| AdminEditor.SaveThenLoad | app/admin/page.tsx:26-119 | loading a record right after saving it gives back the saved progress, medium and locations |
| AdminEditor.PreviewRendering | app/admin/page.tsx:182-185 | drawn in the preview, derived statuses are always green and never dimmed; with positional ids a check mark appears iff the fill is 100 |
| SampleData.DefaultConsignment | app/api/admin/seed/route.ts:32-47 | VM-7712, Sea, progress 40, ids 1..4 in order; the stored statuses and stage counter equal what the derivation gives at 40 (COMPLETED, IN_PROGRESS, LOCKED, LOCKED; stage 2) |
| SampleData.SeedDeterministic | app/api/admin/seed/route.ts:11-47 | two seedings produce the same consignment apart from `updatedAt` |
| SampleData.SampleRecordNamesSampleClient | app/api/admin/seed/route.ts:11-30 | the seeded authorization record's clientId is the seeded client's id |
| SeedRoute.ConsignmentDoc | app/api/admin/seed/route.ts:56-57 | the document as built carries the record's id and stamp and no `_id` (the database adds one on insert) |
| Types.StatusNamed | app/api/admin/seed/route.ts:39-42 | reading a stored status literal back gives the status it names, and fails on any other text |
| Types.MediumNamed | app/api/admin/seed/route.ts:32-47 | reading a stored medium literal back gives the medium it names, and fails on any other text |
| SeedRoute.StagesRoundTrip | app/api/admin/seed/route.ts:38-43 | a stage list stored and read back is the same list, names and dates included |
| SeedRoute.ConsignmentDocRoundTrip | app/api/admin/seed/route.ts:32-57 | the inserted document reads back as exactly the record it was built from: id, key hint, progress, stages, medium and stamp |
| SeedRoute.ConsignmentDocKeys | app/api/admin/seed/route.ts:32-47 | the document's top-level fields are the id, key hint, progress and stamp, plus the medium when the record has one |
| SeedRoute.SeededConsignmentReadsBack | app/api/admin/seed/route.ts:56-57 | after a successful seeding the only stored consignment is VM-7712 and it reads back as the sample record |
| SeedRoute.ApplyFirst | app/api/admin/seed/route.ts:49-57 | after the first k writes each collection is untouched before its delete, empty after it, and exactly the sample data after its insert |
| SeedRoute.Seed | app/api/admin/seed/route.ts:5-67 | success (200, success true) iff nothing failed, and then all three collections hold exactly the sample data; any failure answers 500; a failed write leaves exactly the writes before it applied |
| SeedRoute.SeedTwice | app/api/admin/seed/route.ts:49-57 | seeding a seeded database gives the same database as seeding once |
| ConsignmentRoute.UpdateFields | app/api/admin/consignment/route.ts:19-20 | the update has no `_id`, carries the server stamp, and keeps every other body field |
| ConsignmentRoute.Upsert | app/api/admin/consignment/route.ts:5-36 | 400 iff the parsed non-null body has no truthy consignmentId; 500 for unparseable or null bodies and unreachable storage; only 200 writes; 200 echoes the id, holds a document under it, and leaves other ids unchanged |
| ConsignmentRoute.UpsertedDocument | app/api/admin/consignment/route.ts:19-26 | the upserted document has the server stamp and every body field; stored fields the body omits are kept; any `_id` is the stored one; a fresh insert has only body fields and the stamp |
| ConsignmentRoute.UpsertRetry | app/api/admin/consignment/route.ts:19-26 | repeating a request gives the same store as sending it once at the later time |
| Storage.SeedLocalStorage | lib/storage.ts:14-55 | afterwards every key is present; present keys are never overwritten; absent ones get the sample records, client and signed-out session |
| Storage.GetAuthRecords | lib/storage.ts:61-65 | the stored records, or none when the key is absent |
| Storage.GetClients | lib/storage.ts:71-75 | the stored clients, or none when the key is absent |
| Storage.GetSession | lib/storage.ts:89-95 | the stored session, or the signed-out session (not authenticated, null client and access) when the key is absent |
| Storage.GetClientById | lib/storage.ts:71-84 | the first stored client with that id, or none exactly when no client has it; an absent key reads as no clients |
| Storage.SetSession | lib/storage.ts:89-103 | reading the session back gives the session set; other keys untouched |
| Storage.ClearSession | lib/storage.ts:89-116 | the stored session is signed out with null client and access, which is also the default read from empty storage |
| Storage.ValidateCredentials | lib/storage.ts:122-138 | valid iff some stored record matches both values exactly, with the first match's clientId; invalid carries no clientId; absent records mean none match |
| Storage.SeedIdempotent | lib/storage.ts:14-55 | seeding twice equals seeding once |
| Storage.ClearIdempotent | lib/storage.ts:108-116 | clearing twice equals clearing once |
| Storage.SeededCredentials | lib/storage.ts:122-138 | on freshly seeded storage exactly VMA-7712/CN-20498 is valid, with client_001, which `getClientById` finds |
| PortalRoutes.Login | app/api/portal/login/route.ts:3-28 | 500 iff the body is unparseable or null; 400 "Missing credentials" iff either field is falsy; otherwise 200 success whatever the values |
| PortalRoutes.VerifyOtp | app/api/portal/verify-otp/route.ts:1-32 | 500 iff unparseable or null; 400 iff otp falsy or missing; 200 success iff otp is exactly the string "123456"; otherwise 401 |
| PortalRoutes.NumericOtpRefused | app/api/portal/verify-otp/route.ts:18-25 | the number 123456 is refused with 401, as the comparison is strict |
| TwoFactor.DigitsOnly | app/portal/2fa/page.tsx:87 | removing non-digits leaves only digits, never lengthens, leaves a digit string unchanged, and removes a single non-digit |
| TwoFactor.Sanitise | app/portal/2fa/page.tsx:87 | the kept code is all digits, at most 6 long, a prefix of the input's digits, and exactly min(6, number of digits) long |
| TwoFactor.DigitsOnlyAppend | app/portal/2fa/page.tsx:87 | the digits of a concatenation are the digits of each part, in order |
| TwoFactor.Enter | app/portal/2fa/page.tsx:87-88 | with the length limit, a sanitised field stays all digits and at most 6 long and only grows; text that fits is sanitised together with the field; a full field takes nothing |
| TwoFactor.TypedKeysSanitise | app/portal/2fa/page.tsx:87-88 | typing key by key into a sanitised field gives the sanitised text of everything typed so far |
| TwoFactor.KeyByKey | app/portal/2fa/page.tsx:87-88 | typed one key at a time into the empty field, the field holds `Sanitise` of the keys: the length limit never bites first |
| TwoFactor.PastedSeparatedCode | app/portal/2fa/page.tsx:87-88 | pasting `1-2-3-4-5-6` into the empty field keeps only 123, because the length limit cuts the text before the sanitiser runs |
| TwoFactor.TypedSeparatedCode | app/portal/2fa/page.tsx:87 | the same text sanitised whole keeps 123456 |
| TwoFactor.SixDigitsFreeze | app/portal/2fa/page.tsx:87-88 | once six digits are typed, further typing leaves the code unchanged |
| TwoFactor.SanitiseIdempotent | app/portal/2fa/page.tsx:87 | sanitising twice equals sanitising once |
| TwoFactor.SanitiseFixedPoints | app/portal/2fa/page.tsx:87 | a string is left unchanged iff it is digits only and at most 6 long |
| TwoFactor.RedirectedVisitorNotSignedIn | app/portal/2fa/page.tsx:15-48 | a visitor sent back to login on entry (pending id missing or empty) is never signed in and nothing is stored, whatever the route answers; a visitor who stays is signed in by any successful answer |
| TwoFactor.Submit | app/portal/2fa/page.tsx:23-64 | to the dashboard iff the reply succeeded and a pending id exists, then the session is authenticated for that id at `now` and the pending id is removed; otherwise nothing is stored; a failed reply shows "Verification failed."; a failed request shows "An error occurred. Please try again."; a success without a pending id stays silently |
| TwoFactor.SubmitForm | app/portal/2fa/page.tsx:76-89 | a `required` field that is empty is never submitted; otherwise, with a pending id, the client reaches the dashboard iff the code is 123456, and then the session is signed in and the pending id dropped |
| TwoFactor.TypedCodeSubmission | app/portal/2fa/page.tsx:23-89 | typing a code one key at a time and submitting it signs the pending client in iff the kept code, which is `Sanitise` of the keys, is 123456; typing no digit sends nothing |
| EnvFile.Trim | scripts/test-mongodb.mjs:18 | the result is an infix of the input with only white space removed at both ends, and neither end is white space |
| EnvFile.Split | scripts/test-mongodb.mjs:15-16 | at least one piece, and no piece contains the separator |
| EnvFile.JoinSplit | scripts/test-mongodb.mjs:16-18 | re-joining the pieces with the separator gives the original text |
| EnvFile.SplitAtFirst | scripts/test-mongodb.mjs:16-18 | the first piece is the text before the first separator and the rest re-joined is the text after it; no separator means one piece |
| EnvFile.ParseLine | scripts/test-mongodb.mjs:16-18 | no entry iff the line is empty or starts with '='; a key never contains '=' |
| EnvFile.ParseLineMeaning | scripts/test-mongodb.mjs:16-18 | no entry iff the line is empty or starts with '='; otherwise the key is the trimmed text before the first '=' and the value the trimmed text after it; no '=' gives the empty value |
| EnvFile.KeysOfLines | scripts/test-mongodb.mjs:14-20 | a key is defined iff some line defines it; keys no line defines keep their value |
| EnvFile.LoadEnvKeys | scripts/test-mongodb.mjs:14-20 | a key is in the file's environment iff some line of the file defines it |
| EnvFile.LastDefinitionWins | scripts/test-mongodb.mjs:14-20 | the last line defining a key decides its value |
| EnvFile.ReadEnvConfig | scripts/test-mongodb.mjs:6-36 | the script gets connection settings iff the file is readable and defines a non-empty MONGODB_URI |
| EnvFile.ConnectionConfig | scripts/test-mongodb.mjs:31-38 | no settings, so no connection, iff the file is missing or MONGODB_URI is absent or empty; the database name is DB_NAME when non-empty, else "vmap_tracking" |
| EnvFile.WorkedKeyValue | scripts/test-mongodb.mjs:16-18 | `a=b=c` defines a with value `b=c` |
| EnvFile.WorkedNoEntry | scripts/test-mongodb.mjs:17 | an empty line and `=x` define nothing |
| EnvFile.WorkedBareWord | scripts/test-mongodb.mjs:16-18 | `FLAG` defines FLAG with the empty value |

## Left out

- Derivation.SegmentFill: the source divides in floating point. The model uses the exact integer `4 * (p - start)` and ignores any last-place rounding.
- ConsignmentRoute.Upsert: the `_id` the database generates for an inserted document is not modelled. Field names with dots or `$`, and query semantics for non-scalar ids, are left out too. A failing database call is assumed to have written nothing: an `updateOne` that was applied and then reported an error (a write-concern or network failure) answers 500 in the source with the store changed, which the model does not cover.
- SeedRoute.Seed: a failing database call is assumed to have written nothing. A `deleteMany` that removed some documents before failing, or an `insertOne`/`insertMany` applied before an error was reported, answers 500 in the source with a store the model does not describe.
- SeedRoute.ConsignmentDoc: the `_id` that MongoDB adds to each inserted document is not modelled. The seeded collections hold the documents as built.
- EnvFile.KeysOfLines: a line whose key is `__proto__` is not special-cased. In the source the value is a string, which the `__proto__` setter of a plain object ignores, so no key is added. The model stores it as an ordinary key.
- EnvFile.LoadEnvKeys: the same `__proto__` exception as EnvFile.KeysOfLines.
- EnvFile.LastDefinitionWins: the same `__proto__` exception as EnvFile.KeysOfLines.
- TwoFactor.TypedCodeSubmission: only typing one key at a time, at the end of the field, is covered. Pasting, editing in the middle and replacing a selection are not; `maxLength={6}` is modelled for a single edit by TwoFactor.Enter, and pasting differs from typing (TwoFactor.PastedSeparatedCode). The `required` attribute is modelled by TwoFactor.SubmitForm: an empty code is never sent.
- EnvFile.LoadEnv carries no contract of its own. Its keys are stated by EnvFile.LoadEnvKeys.
- The `typeof window === 'undefined'` branches of lib/storage.ts (server-side rendering) are left out. In them the getters return defaults and the setters do nothing.
- JSON encoding of local storage is left out: a slot holds the decoded value.
- Non-integer numbers and NaN in request bodies are left out.
- React plumbing of the editor is left out: the `loading` flag, `handleLoad`, `handleSeedDefault` (a fetch of the seed route followed by a load), `handleLogout`, router navigation and the initial effect.
- `getConsignment`, `setConsignment`, `getAdminAuth`, `setAdminAuth` and `clearAdminSession` are not part of this model. They are abstract.
- A stored record without a `progress` object would make `loadConsignment` throw. The model's records always have one.
- AdminEditor.ChangeLocation requires an index within the form's locations. The page renders one input per loaded stage, so no other index reaches it.
- The connect/list/read/insert/delete part of scripts/test-mongodb.mjs is left out (network I/O), and so is its logging.
- Reading `.env.local` is an input: a missing or unreadable file is `None`.
- The portal login page (the step that stores the pending client id), the admin login page, the protected-route wrappers, the date picker and the static pages hold no modelled logic.
- The read-one-consignment route is left out.
- Concurrent admin sessions (last writer wins) are left out.

=== FILE: admin_editor.dfy ===
/** The admin editor: the form state it keeps, loading a consignment into
    it (with the `|| 0` and `|| 'Pending'` fallbacks), the live preview of
    the stages, the record a save persists, and the per-stage location
    edit. The consignment store behind `getConsignment`/`setConsignment`
    is an abstract map from consignment id to record. */
module AdminEditor {
  import opened Common
  import opened Types
  import opened Derivation
  import opened ProgressBar

  type Store = map<string, Consignment>

  /** The editor's React state. `loaded` is `null` until a record loads. */
  datatype Editor = Editor(
    idField: string,
    loaded: Option<Consignment>,
    totalProgress: int,
    medium: Medium,
    locations: seq<string>,
    message: string)

  /** The state on first render. */
  const Initial: Editor := Editor("VM-7712", None, 0, Unassigned, ["", "", "", ""], "")

  /** What every reachable editor state satisfies: once a record is loaded
      there is one location field per stage of it. */
  predicate Consistent(e: Editor) {
    e.loaded.Some? ==> |e.locations| == |e.loaded.value.progress.stages|
  }

  /** The first render: no record, hence no preview, four empty location
      fields, medium 'Pending', and the form is `Consistent`. */
  lemma InitialState()
    ensures Consistent(Initial) && PreviewStages(Initial).None?
    ensures Initial.medium == Unassigned && |Initial.locations| == 4
  {
  }

  /** `loadConsignment(id)`: a found record fills the form (missing or zero
      progress reads as 0, a missing medium as 'Pending'); a miss only sets
      the message and keeps the previous record and form. */
  function Load(e: Editor, store: Store, id: string): (r: Editor)
    ensures Consistent(e) ==> Consistent(r)
    ensures id in store ==> r.loaded == Some(store[id])
    ensures id in store ==> r.totalProgress == store[id].progress.totalProgress.GetOr(0)
    ensures id in store ==> r.medium == store[id].transportMedium.GetOr(Unassigned)
    ensures id in store ==> |r.locations| == |store[id].progress.stages|
    ensures id in store ==>
              forall i :: 0 <= i < |r.locations| ==> r.locations[i] == store[id].progress.stages[i].location
    ensures id !in store ==> r == e.(message := "Consignment " + id + " not found")
    ensures id in store ==> r.idField == e.idField && r.message == "Loaded consignment: " + id
  {
    if id in store then
      var data := store[id];
      e.(loaded := Some(data),
         totalProgress := data.progress.totalProgress.GetOr(0),
         medium := data.transportMedium.GetOr(Unassigned),
         locations := seq(|data.progress.stages|, i requires 0 <= i < |data.progress.stages| => data.progress.stages[i].location),
         message := "Loaded consignment: " + id)
    else
      e.(message := "Consignment " + id + " not found")
  }

  /** The slider: `min="0" max="100"`, integer steps. */
  function SetProgress(e: Editor, p: int): (r: Editor)
    requires 0 <= p <= 100
    ensures Consistent(e) ==> Consistent(r)
    ensures r.totalProgress == p && r.(totalProgress := e.totalProgress) == e
  {
    e.(totalProgress := p)
  }

  /** The medium buttons offer Air, Sea and Land only. */
  function SelectMedium(e: Editor, m: Medium): (r: Editor)
    requires m != Unassigned
    ensures Consistent(e) ==> Consistent(r)
    ensures r.medium == m && r.medium != Unassigned
    ensures r.(medium := e.medium) == e
  {
    e.(medium := m)
  }

  /** `handleLocationChange(index, value)`: only location `index` changes.
      The inputs exist one per loaded stage, so `index` is in range. */
  function ChangeLocation(e: Editor, index: int, value: string): (r: Editor)
    requires 0 <= index < |e.locations|
    ensures Consistent(e) ==> Consistent(r)
    ensures |r.locations| == |e.locations| && r.locations[index] == value
    ensures forall i :: 0 <= i < |e.locations| && i != index ==> r.locations[i] == e.locations[i]
    ensures r.(locations := e.locations) == e
  {
    e.(locations := e.locations[index := value])
  }

  /** The stage list a save persists (and the preview shows): each stage
      keeps its id, title, name and date, takes the edited location of its
      position, and the status derived for its POSITION (index + 1), not
      for its own id. */
  function EditedStages(stages: seq<Stage>, locations: seq<string>, p: int): (r: seq<Stage>)
    requires |locations| == |stages|
    ensures |r| == |stages|
    ensures forall i :: 0 <= i < |r| ==>
              r[i].id == stages[i].id && r[i].title == stages[i].title
              && r[i].name == stages[i].name && r[i].date == stages[i].date
    ensures forall i :: 0 <= i < |r| ==> r[i].location == locations[i]
    ensures forall i :: 0 <= i < |r| ==> r[i].status == StatusOf(i + 1, p)
    ensures forall i :: 0 <= i < |r| ==> r[i].status in {Completed, InProgress, Locked}
    ensures forall i, j :: 0 <= i < j < |r| ==> Rank(r[i].status) >= Rank(r[j].status)
  {
    var r := seq(|stages|, i requires 0 <= i < |stages| =>
                   stages[i].(location := locations[i], status := StatusOf(i + 1, p)));
    assert forall i, j :: 0 <= i < j < |r| ==> Rank(r[i].status) >= Rank(r[j].status) by {
      forall i, j | 0 <= i < j < |r|
        ensures Rank(r[i].status) >= Rank(r[j].status)
      {
        MonotoneFront(p, i + 1, j + 1);
      }
    }
    r
  }

  /** `getPreviewStages()`: nothing before a record loads. */
  function PreviewStages(e: Editor): (r: Option<seq<Stage>>)
    requires Consistent(e)
    ensures r.Some? <==> e.loaded.Some?
    ensures r.Some? ==> |r.value| == |e.loaded.value.progress.stages|
  {
    match e.loaded
    case None => None
    case Some(c) => Some(EditedStages(c.progress.stages, e.locations, e.totalProgress))
  }

  /** The record `handleSave` builds: progress, stage counter, medium and
      time stamp replaced, the stages edited in place, the id and key hint
      carried over. */
  function SavedRecord(c: Consignment, e: Editor, now: string): (r: Consignment)
    requires |e.locations| == |c.progress.stages|
    ensures r.consignmentId == c.consignmentId && r.authorizationKeyHint == c.authorizationKeyHint
    ensures r.progress.totalProgress == Some(e.totalProgress)
    ensures r.progress.currentStage == CurrentStage(e.totalProgress)
    ensures 1 <= r.progress.currentStage <= 4
    ensures r.transportMedium == Some(e.medium) && r.updatedAt == now
    ensures r.progress.stages == EditedStages(c.progress.stages, e.locations, e.totalProgress)
  {
    c.(progress := Progress(Some(e.totalProgress), CurrentStage(e.totalProgress),
                            EditedStages(c.progress.stages, e.locations, e.totalProgress)),
       transportMedium := Some(e.medium),
       updatedAt := now)
  }

  datatype Saved = Saved(editor: Editor, store: Store)

  /** `handleSave`: without a loaded record nothing happens; otherwise the
      record is handed to the store, which `accepted` or refused it. On
      acceptance the store holds it under its id and the editor adopts it;
      on refusal the store and the form are left as they were. */
  function Save(e: Editor, store: Store, now: string, accepted: bool): (r: Saved)
    requires Consistent(e)
    ensures Consistent(r.editor)
    ensures e.loaded.None? ==> r == Saved(e, store)
    ensures !accepted ==> r.store == store
    ensures e.loaded.Some? && !accepted ==> r.editor == e.(message := "Failed to save changes")
    ensures e.loaded.Some? && accepted ==>
              forall k :: k in r.store ==> k in store || k == e.loaded.value.consignmentId
    ensures e.loaded.Some? && accepted ==>
              var id := e.loaded.value.consignmentId;
              && id in r.store
              && r.store[id] == SavedRecord(e.loaded.value, e, now)
              && r.editor.loaded == Some(r.store[id])
              && forall k :: k in store && k != id ==> k in r.store && r.store[k] == store[k]
    ensures e.loaded.Some? && accepted ==> r.editor.message == "Changes saved successfully"
    ensures r.editor.(loaded := e.loaded, message := e.message) == e
  {
    match e.loaded
    case None => Saved(e, store)
    case Some(c) =>
      var updated := SavedRecord(c, e, now);
      if accepted then
        Saved(e.(loaded := Some(updated), message := "Changes saved successfully"),
              store[c.consignmentId := updated])
      else
        Saved(e.(message := "Failed to save changes"), store)
  }

  /** The preview shows exactly the stages a save would persist. */
  lemma PreviewMatchesSave(e: Editor, store: Store, now: string)
    requires Consistent(e) && e.loaded.Some?
    ensures PreviewStages(e) == Some(Save(e, store, now, true).editor.loaded.value.progress.stages)
  {
  }

  /** When the stage ids are the positions 1, 2, ..., the positional status
      a save writes is the status of the stage's own id. */
  lemma PositionalStatusIsIdStatus(stages: seq<Stage>, locations: seq<string>, p: int)
    requires |locations| == |stages|
    requires forall i :: 0 <= i < |stages| ==> stages[i].id == i + 1
    ensures forall i :: 0 <= i < |stages| ==>
              EditedStages(stages, locations, p)[i].status == StatusOf(stages[i].id, p)
  {
  }

  /** Saving and then loading the same id gives back the form that was
      saved: progress, medium and every location. */
  lemma SaveThenLoad(e: Editor, store: Store, now: string)
    requires Consistent(e) && e.loaded.Some?
    ensures var s := Save(e, store, now, true);
            var r := Load(s.editor, s.store, e.loaded.value.consignmentId);
            r.totalProgress == e.totalProgress && r.medium == e.medium
            && r.locations == e.locations && r.loaded == s.editor.loaded
  {
  }

  /** Drawn in the preview, derived statuses always get the green fill and
      are never dimmed; when the stage ids are the positions, a segment shows
      the check mark exactly when its fill is full. */
  lemma PreviewRendering(e: Editor)
    requires Consistent(e) && e.loaded.Some?
    ensures var v := Render(PreviewStages(e).value, e.totalProgress);
            forall i :: 0 <= i < |v| ==> v[i].fillClasses == FillBase + Green && v[i].segmentClasses == SegmentBase
    ensures (forall i :: 0 <= i < |e.loaded.value.progress.stages| ==> e.loaded.value.progress.stages[i].id == i + 1) ==>
              var v := Render(PreviewStages(e).value, e.totalProgress);
              forall i :: 0 <= i < |v| ==> (v[i].checkmark <==> v[i].fillPercent == 100)
  {
  }
}

=== FILE: common.dfy ===
/** Small shared building blocks: an optional value (JavaScript's
    `undefined`/`null` versus a present value) and a first-match search
    with the semantics of `Array.prototype.find`. */
module Common {

  /** A value that may be absent. */
  datatype Option<+T> = None | Some(value: T) {

    /** The value, or `default` when absent (JavaScript's `x ?? default`). */
    function GetOr(default: T): T {
      match this
      case Some(v) => v
      case None => default
    }
  }

  /** The index of the first element of `s` satisfying `p`, scanning from the
      front exactly as `find` does; `None` when no element satisfies it. */
  function FindFirst<T>(s: seq<T>, p: T -> bool): (r: Option<nat>)
    ensures r.Some? ==> r.value < |s| && p(s[r.value])
    ensures r.Some? ==> forall j :: 0 <= j < r.value ==> !p(s[j])
    ensures r.None? <==> forall j :: 0 <= j < |s| ==> !p(s[j])
  {
    if |s| == 0 then None
    else if p(s[0]) then Some(0)
    else
      match FindFirst(s[1..], p)
      case None => None
      case Some(i) => Some(i + 1)
  }
}

=== FILE: consignment_route.dfy ===
/** The admin upsert route: it rejects a body without a truthy
    `consignmentId`, drops the body's `_id`, stamps `updatedAt` with the
    server's time, and merges the remaining top-level fields into the stored
    document with that id (`$set` with `upsert: true`), inserting it when
    absent. The store maps a consignment id value to its document. */
module ConsignmentRoute {
  import opened Common
  import opened Json

  type Store = map<Value, Doc>

  datatype Handled = Handled(store: Store, response: Response)

  /** The top-level fields `$set` writes: the body without `_id`, with the
      server time stamp. */
  function UpdateFields(fields: Doc, now: string): (u: Doc)
    ensures "_id" !in u
    ensures "updatedAt" in u && u["updatedAt"] == Str(now)
    ensures forall f :: f in fields && f != "_id" && f != "updatedAt" ==> f in u && u[f] == fields[f]
    ensures forall f :: f in u ==> f in fields || f == "updatedAt"
  {
    (fields - {"_id"})["updatedAt" := Str(now)]
  }

  /** A `$set` update: named fields are replaced or added, others kept. */
  function SetFields(stored: Doc, update: Doc): Doc {
    stored + update
  }

  const Failure: Response := Response(500, map["error" := Str("Failed to update consignment")])

  /** `POST /api/admin/consignment`. `reachable` says whether the database
      answers; when it does not, nothing is written. */
  function Upsert(store: Store, req: Body, now: string, reachable: bool): (r: Handled)
    ensures r.response.status in {200, 400, 500}
    ensures r.response.status != 200 ==> r.store == store
    ensures r.response.status == 400 <==>
              req.Parsed? && !req.v.Null? && !ReadTruthy(ReadProp(req.v, "consignmentId"))
    ensures r.response.status == 200 <==>
              reachable && req.Parsed? && ReadTruthy(ReadProp(req.v, "consignmentId"))
    ensures r.response.status == 200 ==>
              && req.Parsed? && req.v.Obj? && "consignmentId" in req.v.fields
              && var id := req.v.fields["consignmentId"];
              && r.response.body == map["success" := Bool(true), "consignmentId" := id]
              && id in r.store
              && (forall k :: k in store && k != id ==> k in r.store && r.store[k] == store[k])
              && (forall k :: k in r.store ==> k in store || k == id)
  {
    match req
    case Malformed => Handled(store, Failure)
    case Parsed(body) =>
      var read := ReadProp(body, "consignmentId");
      if read.Throws? then Handled(store, Failure)
      else if !ReadTruthy(read) then
        Handled(store, Response(400, map["error" := Str("Missing consignmentId")]))
      else if !reachable then Handled(store, Failure)
      else
        var id := read.v;
        var update := UpdateFields(body.fields, now);
        var doc := if id in store then SetFields(store[id], update) else update;
        Handled(store[id := doc], Response(200, map["success" := Bool(true), "consignmentId" := id]))
  }

  /** What a successful upsert leaves under the id: the server's stamp, every
      body field but `_id` and `updatedAt`, every previously stored field the
      body does not name, and no `_id` except one already stored. */
  lemma UpsertedDocument(store: Store, fields: Doc, now: string)
    requires "consignmentId" in fields && Truthy(fields["consignmentId"])
    ensures var id := fields["consignmentId"];
            var d := Upsert(store, Parsed(Obj(fields)), now, true).store[id];
            && d["updatedAt"] == Str(now)
            && (forall f :: f in fields && f != "_id" && f != "updatedAt" ==> f in d && d[f] == fields[f])
            && (id in store ==> forall f :: f in store[id] && f !in fields && f != "updatedAt" ==> f in d && d[f] == store[id][f])
            && ("_id" in d ==> id in store && "_id" in store[id] && d["_id"] == store[id]["_id"])
            && (id !in store ==> forall f :: f in d ==> f in fields || f == "updatedAt")
  {
  }

  /** Repeating the same request changes nothing but the time stamp. */
  lemma UpsertRetry(store: Store, fields: Doc, a: string, b: string)
    requires "consignmentId" in fields && Truthy(fields["consignmentId"])
    ensures var once := Upsert(store, Parsed(Obj(fields)), b, true).store;
            Upsert(Upsert(store, Parsed(Obj(fields)), a, true).store, Parsed(Obj(fields)), b, true).store == once
  {
    var id := fields["consignmentId"];
    var ua, ub := UpdateFields(fields, a), UpdateFields(fields, b);
    var first := Upsert(store, Parsed(Obj(fields)), a, true).store;
    var once := Upsert(store, Parsed(Obj(fields)), b, true).store;
    var twice := Upsert(first, Parsed(Obj(fields)), b, true).store;
    assert ua.Keys == ub.Keys;
    assert twice[id] == SetFields(first[id], ub);
    assert twice[id] == once[id];
    assert twice.Keys == once.Keys;
  }
}

=== FILE: derivation.dfy ===
/** The stage-derivation engine: from an integer journey progress and a
    1-based stage id it derives the stage status (admin editor), the
    "active" stage shown beside the slider (admin editor), and the segment
    fill and "current segment" flag (progress bar). Every stage owns the
    25-point band `(StageStart(id), StageEnd(id)]`. All functions are total
    over `int`; nothing here clamps the progress. */
module Derivation {
  import opened Types

  /** Width of one stage's band. */
  const BandWidth: int := 25

  function StageStart(id: int): int { (id - 1) * BandWidth }

  function StageEnd(id: int): int { id * BandWidth }

  /** The stage the editor labels "Stage k Active". It is the band holding
      `p` for `0 <= p < 75`, and stays on stage 4 from 75 onwards (there is
      no fifth stage); negative progress reports stage 1. */
  function CurrentStage(p: int): (r: int)
    ensures 1 <= r <= 4
    ensures p < 0 ==> r == 1
    ensures 0 <= p ==> StageStart(r) <= p
    ensures p < StageStart(4) ==> p < StageEnd(r)
    ensures StageStart(4) <= p ==> r == 4
  {
    if p >= 100 then 4
    else if p >= 75 then 4
    else if p >= 50 then 3
    else if p >= 25 then 2
    else 1
  }

  /** The status the editor derives for stage `id` at progress `p`. A band's
      upper boundary belongs to the completed side. */
  function StatusOf(id: int, p: int): (r: StageStatus)
    ensures r == Completed <==> StageEnd(id) <= p
    ensures r == InProgress <==> StageStart(id) < p < StageEnd(id)
    ensures r == Locked <==> p <= StageStart(id)
  {
    if p >= StageEnd(id) then Completed
    else if p > StageStart(id) then InProgress
    else Locked
  }

  /** The width, in percent, of segment `id`'s fill at progress `p`. For
      integer progress `((p - start) / 25) * 100` is exactly `4 * (p - start)`. */
  function SegmentFill(id: int, p: int): (r: int)
    ensures 0 <= r <= 100
    ensures r == 100 <==> StageEnd(id) <= p
    ensures r == 0 <==> p <= StageStart(id)
    ensures StageStart(id) < p < StageEnd(id) ==> r * BandWidth == (p - StageStart(id)) * 100
  {
    if p >= StageEnd(id) then 100
    else if p <= StageStart(id) then 0
    else (p - StageStart(id)) * 4
  }

  /** Whether the progress bar treats segment `id` as the current one: its
      band is open below and closed above. */
  function IsCurrentStage(id: int, p: int): (r: bool)
    ensures r <==> StatusOf(id, p) == InProgress || p == StageEnd(id)
  {
    StageStart(id) < p <= StageEnd(id)
  }

  /** Orders the derived statuses by how far the journey has got. */
  function Rank(s: StageStatus): nat {
    match s
    case Completed => 2
    case InProgress => 1
    case _ => 0
  }

  /** The editor only ever derives the three editor statuses. */
  lemma DerivedStatusIsEditorStatus(id: int, p: int)
    ensures StatusOf(id, p) in {Completed, InProgress, Locked}
  {
  }

  /** The stage counter is monotone in the progress. */
  lemma CurrentStageMonotone(p: int, q: int)
    requires p <= q
    ensures CurrentStage(p) <= CurrentStage(q)
  {
  }

  /** Monotone front: along the stage order statuses never increase, so for
      a fixed progress they read COMPLETED..., at most one IN_PROGRESS, then
      LOCKED... */
  lemma MonotoneFront(p: int, i: int, j: int)
    requires i < j
    ensures Rank(StatusOf(i, p)) >= Rank(StatusOf(j, p))
    ensures StatusOf(j, p) != Locked ==> StatusOf(i, p) == Completed
    ensures StatusOf(i, p) != Completed ==> StatusOf(j, p) == Locked
  {
  }

  /** At most one stage is in progress at any progress value. */
  lemma AtMostOneInProgress(p: int, i: int, j: int)
    requires StatusOf(i, p) == InProgress && StatusOf(j, p) == InProgress
    ensures i == j
  {
  }

  /** On a band boundary, or at or below zero, no stage is in progress. */
  lemma NoInProgressOnBoundary(p: int, id: int)
    requires 1 <= id
    requires p <= 0 || p % BandWidth == 0
    ensures StatusOf(id, p) != InProgress
  {
  }

  /** A stage in progress is the stage the editor reports as active. */
  lemma InProgressIsCurrent(p: int, k: int)
    requires 1 <= k <= 4
    requires StatusOf(k, p) == InProgress
    ensures CurrentStage(p) == k
  {
  }

  /** The fill the progress bar draws agrees with the status the editor
      derives, band for band. */
  lemma FillAgreesWithStatus(id: int, p: int)
    ensures SegmentFill(id, p) == 100 <==> StatusOf(id, p) == Completed
    ensures SegmentFill(id, p) == 0 <==> StatusOf(id, p) == Locked
    ensures 0 < SegmentFill(id, p) < 100 <==> StatusOf(id, p) == InProgress
  {
  }

  /** For a fixed stage the fill never shrinks as progress grows. */
  lemma FillMonotone(id: int, p: int, q: int)
    requires p <= q
    ensures SegmentFill(id, p) <= SegmentFill(id, q)
  {
  }

  /** The current segment always has a visible fill, so the pulse condition
      `active && fillPercent > 0` is the same as `active`. */
  lemma CurrentHasFill(id: int, p: int)
    requires IsCurrentStage(id, p)
    ensures SegmentFill(id, p) > 0
  {
  }

  /** For `0 < p <= 100` exactly one of the four segments is current:
      the one numbered `(p + 24) / 25`. */
  lemma ExactlyOneCurrent(p: int)
    requires 0 < p <= 100
    ensures IsCurrentStage((p + BandWidth - 1) / BandWidth, p)
    ensures 1 <= (p + BandWidth - 1) / BandWidth <= 4
    ensures forall id :: IsCurrentStage(id, p) ==> id == (p + BandWidth - 1) / BandWidth
  {
  }

  /** Outside `(0, 100]` no segment among the four is current. */
  lemma NoCurrentOutsideRange(p: int, id: int)
    requires p <= 0 || p > 100
    requires 1 <= id <= 4
    ensures !IsCurrentStage(id, p)
  {
  }

  /** The editor's "active" stage and the bar's current segment are the same
      stage except on the interior band boundaries 25, 50 and 75, where the
      bar keeps the finished stage and the editor already names the next one
      (at 100 both name stage 4). */
  lemma CurrentStageVersusCurrentSegment(p: int)
    requires 0 < p <= 100
    ensures p % BandWidth != 0 || p == 100 ==> IsCurrentStage(CurrentStage(p), p)
    ensures p % BandWidth == 0 && p < 100 ==>
              IsCurrentStage(p / BandWidth, p) && CurrentStage(p) == p / BandWidth + 1
  {
  }

  /** The worked values: boundary ownership, interpolation inside a band,
      and stage 4 both current and completed at 100. */
  lemma WorkedValues()
    ensures StatusOf(1, 25) == Completed && StatusOf(2, 25) == Locked
    ensures StatusOf(2, 26) == InProgress
    ensures SegmentFill(2, 37) == 48 && SegmentFill(2, 25) == 0 && SegmentFill(2, 50) == 100
    ensures StatusOf(4, 100) == Completed && CurrentStage(100) == 4
  {
  }
}

=== FILE: env_file.dfy ===
/** The `.env.local` reader of the database connection script: the file is
    split into lines at '\n', each line is split at '=', the first piece
    (trimmed) is the key and the remaining pieces re-joined with '='
    (trimmed) the value; a line whose first piece is empty adds nothing, and
    a later definition of a key replaces an earlier one. From the result the
    script takes the connection string and the database name. */
module EnvFile {
  import opened Common

  /** JavaScript's `trim` set: WhiteSpace and LineTerminator code points. */
  predicate IsSpace(c: char) {
    || c == '\t' || c == '\n' || c == '\U{000B}' || c == '\U{000C}' || c == '\r' || c == ' '
    || c == '\U{00A0}' || c == '\U{1680}' || ('\U{2000}' <= c <= '\U{200A}')
    || c == '\U{2028}' || c == '\U{2029}' || c == '\U{202F}' || c == '\U{205F}'
    || c == '\U{3000}' || c == '\U{FEFF}'
  }

  /** How many leading characters of `s` are white space. */
  function LeadingSpaces(s: string): (n: nat)
    ensures n <= |s|
    ensures forall k :: 0 <= k < n ==> IsSpace(s[k])
    ensures n < |s| ==> !IsSpace(s[n])
  {
    if |s| == 0 || !IsSpace(s[0]) then 0 else 1 + LeadingSpaces(s[1..])
  }

  /** How many trailing characters of `s` are white space. */
  function TrailingSpaces(s: string): (n: nat)
    ensures n <= |s|
    ensures forall k :: |s| - n <= k < |s| ==> IsSpace(s[k])
    ensures n < |s| ==> !IsSpace(s[|s| - 1 - n])
  {
    if |s| == 0 || !IsSpace(s[|s| - 1]) then 0 else 1 + TrailingSpaces(s[..|s| - 1])
  }

  /** `s.trim()`: the infix of `s` left after removing white space at both
      ends. */
  function Trim(s: string): (r: string)
    ensures r != "" ==> !IsSpace(r[0]) && !IsSpace(r[|r| - 1])
    ensures exists a, b :: 0 <= a <= b <= |s| && r == s[a..b]
              && (forall k :: 0 <= k < a ==> IsSpace(s[k]))
              && (forall k :: b <= k < |s| ==> IsSpace(s[k]))
  {
    var a := LeadingSpaces(s);
    if a == |s| then
      assert s[a..a] == "";
      ""
    else
      var b := |s| - TrailingSpaces(s);
      assert a < b;
      s[a..b]
  }

  /** `parts.join(c)`. */
  function Join(parts: seq<string>, c: char): string {
    if |parts| == 0 then ""
    else if |parts| == 1 then parts[0]
    else parts[0] + [c] + Join(parts[1..], c)
  }

  /** `s.split(c)` for a one-character separator: the maximal pieces between
      separators; there is always at least one piece. */
  function Split(s: string, c: char): (r: seq<string>)
    ensures |r| >= 1
    ensures forall i :: 0 <= i < |r| ==> c !in r[i]
  {
    if |s| == 0 then [""]
    else
      var rest := Split(s[1..], c);
      if s[0] == c then [""] + rest
      else [[s[0]] + rest[0]] + rest[1..]
  }

  /** Joining the pieces with the separator gives the text back. */
  lemma {:induction false} JoinSplit(s: string, c: char)
    ensures Join(Split(s, c), c) == s
    decreases |s|
  {
    if |s| > 0 {
      var rest := Split(s[1..], c);
      JoinSplit(s[1..], c);
      if s[0] == c {
        assert ([""] + rest)[1..] == rest;
      } else {
        var parts := [[s[0]] + rest[0]] + rest[1..];
        if |rest| == 1 {
          assert s == [s[0]] + s[1..];
        } else {
          assert parts[1..] == rest[1..];
          assert Join(rest, c) == rest[0] + [c] + Join(rest[1..], c);
          assert s == [s[0]] + s[1..];
        }
      }
    }
  }

  /** The first piece is the text before the first separator and the other
      pieces, re-joined, the text after it; without a separator the whole
      text is the only piece. */
  lemma SplitAtFirst(s: string, c: char)
    ensures c !in s ==> Split(s, c) == [s]
    ensures c in s ==> exists i :: 0 <= i < |s| && s[i] == c && c !in s[..i]
                                   && Split(s, c)[0] == s[..i] && Join(Split(s, c)[1..], c) == s[i + 1..]
  {
    var parts := Split(s, c);
    JoinSplit(s, c);
    if |parts| == 1 {
      assert s == parts[0];
    } else {
      var i := |parts[0]|;
      assert s == parts[0] + [c] + Join(parts[1..], c);
      assert s[..i] == parts[0];
      assert s[i] == c;
      assert s[i + 1..] == Join(parts[1..], c);
    }
  }

  /** One line: `const [key, ...value] = line.split('=')`, kept when `key`
      is non-empty (the rest array is always truthy). */
  function ParseLine(line: string): (r: Option<(string, string)>)
    ensures r.None? <==> line == "" || line[0] == '='
    ensures r.Some? ==> '=' !in r.value.0
  {
    var parts := Split(line, '=');
    if parts[0] != "" then Some((Trim(parts[0]), Trim(Join(parts[1..], '='))))
    else None
  }

  /** What a line defines: nothing for an empty line or one starting with
      '='; otherwise the trimmed text before the first '=' as key and the
      trimmed text after it, later '=' included, as value; a line with no
      '=' defines its trimmed text with the empty value. */
  lemma ParseLineMeaning(line: string)
    ensures ParseLine(line).None? <==> line == "" || line[0] == '='
    ensures '=' !in line && line != "" ==> ParseLine(line) == Some((Trim(line), ""))
    ensures '=' in line && line[0] != '=' ==>
              exists i :: 0 < i < |line| && line[i] == '=' && '=' !in line[..i]
                          && ParseLine(line) == Some((Trim(line[..i]), Trim(line[i + 1..])))
  {
    SplitAtFirst(line, '=');
    var parts := Split(line, '=');
    if '=' in line {
      var i :| 0 <= i < |line| && line[i] == '=' && '=' !in line[..i]
               && parts[0] == line[..i] && Join(parts[1..], '=') == line[i + 1..];
      if i == 0 {
        assert parts[0] == "";
      } else {
        assert line[0] in line[..i];
      }
    } else if line != "" {
      assert parts == [line];
      assert parts[1..] == [];
    }
  }

  predicate DefinesKey(line: string, k: string) {
    ParseLine(line).Some? && ParseLine(line).value.0 == k
  }

  function ApplyLine(env: map<string, string>, line: string): map<string, string> {
    match ParseLine(line)
    case None => env
    case Some((k, v)) => env[k := v]
  }

  /** The `forEach` over the lines, front to back. */
  function ApplyLines(env: map<string, string>, lines: seq<string>): map<string, string>
    decreases |lines|
  {
    if |lines| == 0 then env else ApplyLines(ApplyLine(env, lines[0]), lines[1..])
  }

  /** Parsing the content of the file. */
  function LoadEnv(content: string): map<string, string> {
    ApplyLines(map[], Split(content, '\n'))
  }

  /** Some line of `lines` defines `k`. */
  predicate SomeLineDefines(lines: seq<string>, k: string) {
    exists i :: 0 <= i < |lines| && DefinesKey(lines[i], k)
  }

  /** A key of the file's environment is exactly a key some line of the
      file defines. */
  lemma LoadEnvKeys(content: string, k: string)
    ensures k in LoadEnv(content) <==> SomeLineDefines(Split(content, '\n'), k)
  {
    var lines, empty: map<string, string> := Split(content, '\n'), map[];
    KeysOfLines(empty, lines, k);
    assert k !in empty;
  }

  /** A key is defined exactly when some line defines it. */
  lemma {:induction false} KeysOfLines(env: map<string, string>, lines: seq<string>, k: string)
    ensures k in ApplyLines(env, lines) <==> k in env || exists i :: 0 <= i < |lines| && DefinesKey(lines[i], k)
    ensures (forall i :: 0 <= i < |lines| ==> !DefinesKey(lines[i], k)) && k in env ==>
              ApplyLines(env, lines)[k] == env[k]
    decreases |lines|
  {
    if |lines| > 0 {
      KeysOfLines(ApplyLine(env, lines[0]), lines[1..], k);
      if exists i :: 0 <= i < |lines| && DefinesKey(lines[i], k) {
        var i :| 0 <= i < |lines| && DefinesKey(lines[i], k);
        if i > 0 {
          assert DefinesKey(lines[1..][i - 1], k);
        }
      }
      if exists i :: 0 <= i < |lines[1..]| && DefinesKey(lines[1..][i], k) {
        var i :| 0 <= i < |lines[1..]| && DefinesKey(lines[1..][i], k);
        assert DefinesKey(lines[i + 1], k);
      }
    }
  }

  /** The last line that defines a key decides its value. */
  lemma {:induction false} LastDefinitionWins(env: map<string, string>, lines: seq<string>, i: nat, k: string)
    requires i < |lines| && DefinesKey(lines[i], k)
    requires forall j :: i < j < |lines| ==> !DefinesKey(lines[j], k)
    ensures k in ApplyLines(env, lines)
    ensures ApplyLines(env, lines)[k] == ParseLine(lines[i]).value.1
    decreases |lines|
  {
    if i == 0 {
      var next := ApplyLine(env, lines[0]);
      assert k in next && next[k] == ParseLine(lines[0]).value.1;
      forall j | 0 <= j < |lines[1..]|
        ensures !DefinesKey(lines[1..][j], k)
      {
        assert lines[1..][j] == lines[j + 1];
      }
      KeysOfLines(next, lines[1..], k);
    } else {
      forall j | i - 1 < j < |lines[1..]|
        ensures !DefinesKey(lines[1..][j], k)
      {
        assert lines[1..][j] == lines[j + 1];
      }
      LastDefinitionWins(ApplyLine(env, lines[0]), lines[1..], i - 1, k);
    }
  }

  /** `loadEnv()`: `null` when the file is missing or unreadable. */
  function ReadEnv(file: Option<string>): Option<map<string, string>> {
    match file
    case None => None
    case Some(content) => Some(LoadEnv(content))
  }

  /** From the file to the settings: the script connects exactly when the
      file can be read and defines a non-empty MONGODB_URI. */
  lemma ReadEnvConfig(file: Option<string>)
    ensures ConnectionConfig(ReadEnv(file)).Some? <==>
              file.Some? && "MONGODB_URI" in LoadEnv(file.value) && LoadEnv(file.value)["MONGODB_URI"] != ""
  {
  }

  const DefaultDbName: string := "vmap_tracking"

  datatype Config = Config(uri: string, dbName: string)

  /** The connection settings: none (the script stops before connecting)
      without an environment or a non-empty MONGODB_URI; the database name
      falls back to "vmap_tracking" when DB_NAME is absent or empty. */
  function ConnectionConfig(env: Option<map<string, string>>): (r: Option<Config>)
    ensures r.None? <==> env.None? || "MONGODB_URI" !in env.value || env.value["MONGODB_URI"] == ""
    ensures r.Some? ==> r.value.uri == env.value["MONGODB_URI"] && r.value.uri != ""
    ensures r.Some? ==> r.value.dbName != ""
    ensures r.Some? && "DB_NAME" in env.value && env.value["DB_NAME"] != "" ==> r.value.dbName == env.value["DB_NAME"]
    ensures r.Some? && ("DB_NAME" !in env.value || env.value["DB_NAME"] == "") ==> r.value.dbName == DefaultDbName
  {
    match env
    case None => None
    case Some(e) =>
      if "MONGODB_URI" !in e || e["MONGODB_URI"] == "" then None
      else
        var dbName := if "DB_NAME" in e && e["DB_NAME"] != "" then e["DB_NAME"] else DefaultDbName;
        Some(Config(e["MONGODB_URI"], dbName))
  }

  lemma SplitABC()
    ensures Split("a=b=c", '=') == ["a", "b", "c"]
  {
    assert "a=b=c"[1..] == "=b=c" && "=b=c"[1..] == "b=c" && "b=c"[1..] == "=c" && "=c"[1..] == "c";
    assert "c"[1..] == "" && Split("", '=') == [""];
    assert ['c'] + "" == "c" && [""][1..] == [];
    assert Split("c", '=') == ["c"];
    assert Split("=c", '=') == ["", "c"];
    assert ['b'] + "" == "b" && ["", "c"][1..] == ["c"];
    assert Split("b=c", '=') == ["b", "c"];
    assert Split("=b=c", '=') == ["", "b", "c"];
    assert ['a'] + "" == "a" && ["", "b", "c"][1..] == ["b", "c"];
  }

  lemma TrimPlain(s: string)
    requires forall k :: 0 <= k < |s| ==> !IsSpace(s[k])
    ensures Trim(s) == s
  {
  }

  /** Later '=' stay in the value. */
  lemma WorkedKeyValue()
    ensures ParseLine("a=b=c") == Some(("a", "b=c"))
  {
    SplitABC();
    var parts := Split("a=b=c", '=');
    assert parts[1..] == ["b", "c"];
    assert Join(["b", "c"], '=') == "b=c";
    TrimPlain("a");
    TrimPlain("b=c");
  }

  /** An empty line and a line starting with '=' define nothing. */
  lemma WorkedNoEntry()
    ensures ParseLine("") == None && ParseLine("=x") == None
  {
    ParseLineMeaning("");
    ParseLineMeaning("=x");
  }

  /** A bare word is a key with the empty value. */
  lemma WorkedBareWord()
    ensures ParseLine("FLAG") == Some(("FLAG", ""))
  {
    var line := "FLAG";
    assert forall k :: 0 <= k < |line| ==> line[k] != '=';
    SplitAtFirst(line, '=');
    var parts := Split(line, '=');
    assert parts == [line];
    assert Join(parts[1..], '=') == "";
    TrimPlain(line);
    TrimPlain("");
  }
}

=== FILE: json.dfy ===
/** The JSON values that request bodies, documents and responses carry, with
    JavaScript's truthiness and property-read rules, and the shape of an HTTP
    JSON response. */
module Json {
  import opened Common

  /** A parsed JSON value. Numbers are integers: non-integral numbers and
      NaN never reach the modelled code paths. */
  datatype Value =
    | Null
    | Bool(b: bool)
    | Num(n: int)
    | Str(s: string)
    | Arr(items: seq<Value>)
    | Obj(fields: map<string, Value>)

  /** A stored document: its top-level fields. */
  type Doc = map<string, Value>

  /** JavaScript truthiness of a JSON value. */
  predicate Truthy(v: Value) {
    match v
    case Null => false
    case Bool(b) => b
    case Num(n) => n != 0
    case Str(s) => s != ""
    case Arr(_) => true
    case Obj(_) => true
  }

  /** The outcome of reading `body.key` (or destructuring `{ key } = body`):
      reading a property of `null` throws a TypeError, a missing property
      is `undefined`. */
  datatype Read = Throws | Undefined | Defined(v: Value)

  function ReadProp(body: Value, key: string): Read {
    match body
    case Null => Throws
    case Obj(m) => if key in m then Defined(m[key]) else Undefined
    case _ => Undefined
  }

  /** `!!body.key`, for a read that did not throw. */
  predicate ReadTruthy(r: Read) {
    r.Defined? && Truthy(r.v)
  }

  /** A request body: `request.json()` either throws or yields a value. */
  datatype Body = Malformed | Parsed(v: Value)

  /** `Response.json(body, { status })`; the default status is 200. */
  datatype Response = Response(status: int, body: Doc)

  /** The `success` flag a client reads back from a response (`data.success`). */
  predicate Succeeded(r: Response) {
    "success" in r.body && Truthy(r.body["success"])
  }
}

=== FILE: portal_routes.dfy ===
/** The two portal API routes: the login stub, which only checks that both
    credentials are present, and the one-time-code check against the fixed
    code "123456". Both read their fields by destructuring the parsed body,
    which throws on a `null` body. */
module PortalRoutes {
  import opened Json

  /** The one code the verification route accepts. */
  const AcceptedOtp: string := "123456"

  const ServerError: Response := Response(500, map["success" := Bool(false), "message" := Str("Server error")])

  /** `POST /api/portal/login`. No lookup is made: any two truthy values
      succeed. */
  function Login(req: Body): (r: Response)
    ensures r.status in {200, 400, 500}
    ensures r.status == 500 <==> req == Malformed || req == Parsed(Null)
    ensures r.status == 400 <==>
              req.Parsed? && !req.v.Null?
              && (!ReadTruthy(ReadProp(req.v, "authorizationCode")) || !ReadTruthy(ReadProp(req.v, "consignmentId")))
    ensures Succeeded(r) <==> r.status == 200
    ensures r.status == 400 ==> "message" in r.body && r.body["message"] == Str("Missing credentials")
  {
    match req
    case Malformed => ServerError
    case Parsed(body) =>
      var code := ReadProp(body, "authorizationCode");
      var id := ReadProp(body, "consignmentId");
      if code.Throws? || id.Throws? then ServerError
      else if !ReadTruthy(code) || !ReadTruthy(id) then
        Response(400, map["success" := Bool(false), "message" := Str("Missing credentials")])
      else Response(200, map["success" := Bool(true)])
  }

  /** `POST /api/portal/verify-otp`. The comparison is strict, so the number
      123456 is refused like any other wrong code. */
  function VerifyOtp(req: Body): (r: Response)
    ensures r.status in {200, 400, 401, 500}
    ensures r.status == 500 <==> req == Malformed || req == Parsed(Null)
    ensures r.status == 400 <==> req.Parsed? && !req.v.Null? && !ReadTruthy(ReadProp(req.v, "otp"))
    ensures r.status == 200 <==> req.Parsed? && ReadProp(req.v, "otp") == Defined(Str(AcceptedOtp))
    ensures Succeeded(r) <==> r.status == 200
  {
    match req
    case Malformed => ServerError
    case Parsed(body) =>
      var otp := ReadProp(body, "otp");
      if otp.Throws? then ServerError
      else if !ReadTruthy(otp) then
        Response(400, map["success" := Bool(false), "message" := Str("Missing OTP")])
      else if otp.v == Str(AcceptedOtp) then Response(200, map["success" := Bool(true)])
      else Response(401, map["success" := Bool(false), "message" := Str("Invalid OTP")])
  }

  /** The request body the verification page sends: `{ otp }`. */
  function OtpBody(otp: string): Body {
    Parsed(Obj(map["otp" := Str(otp)]))
  }

  /** A numeric 123456 is not the accepted code. */
  lemma NumericOtpRefused()
    ensures VerifyOtp(Parsed(Obj(map["otp" := Num(123456)]))).status == 401
  {
  }
}

=== FILE: progress_bar.dfy ===
/** The segmented progress bar the editor preview draws: per stage a fill width, a "current" pulse, colour and dimming
    classes, and display defaults for missing text. */
module ProgressBar {
  import opened Common
  import opened Types
  import opened Derivation
  import opened SampleData

  const SegmentBase: string := "relative flex flex-col gap-2"
  const Dimmed: string := " opacity-50"
  const FillBase: string := "h-full rounded-full transition-all duration-300 relative"
  const Green: string := " bg-green-500"
  const Orange: string := " bg-orange-500"
  const Gray: string := " bg-gray-200"

  /** The wrapper classes of one segment: only a PENDING stage is dimmed. */
  function SegmentClasses(s: Stage): (r: string)
    ensures SegmentBase <= r
    ensures r != SegmentBase <==> s.status == Pending
    ensures s.status == Pending ==> r == SegmentBase + Dimmed
  {
    if s.status == Pending then SegmentBase + Dimmed else SegmentBase
  }

  /** The colour of a segment's fill: orange when paused, gray when pending,
      green for every other status, the editor's IN_PROGRESS and LOCKED
      included. */
  function FillColour(status: StageStatus): (r: string)
    ensures r == Orange <==> status == Paused
    ensures r == Gray <==> status == Pending
    ensures r == Green <==> status != Paused && status != Pending
  {
    if status == Completed || status == Active then Green
    else if status == Paused then Orange
    else if status == Pending then Gray
    else Green
  }

  function FillClasses(s: Stage): string {
    FillBase + FillColour(s.status)
  }

  /** `text || 'Pending'`: empty text is shown as "Pending". */
  function OrPending(text: string): string {
    if text == "" then "Pending" else text
  }

  /** The classes of the status caption: PAUSED and ACTIVE are emphasised. */
  function MarkerClasses(status: StageStatus): (r: string)
    ensures r == "text-orange-500 font-bold" <==> status == Paused
    ensures r == "text-green-600 font-bold" <==> status == Active
    ensures r == "" <==> status !in {Paused, Active}
  {
    if status == Paused then "text-orange-500 font-bold"
    else if status == Active then "text-green-600 font-bold"
    else ""
  }

  /** Everything one rendered segment shows. */
  datatype SegmentView = SegmentView(
    title: string,
    location: string,
    date: string,
    segmentClasses: string,
    fillClasses: string,
    fillPercent: int,
    pulse: bool,
    statusText: string,
    markerClasses: string,
    checkmark: bool)

  /** One segment at overall progress `p`. The pulse is drawn exactly on the
      current segment, the fill never leaves [0, 100], missing location and
      date text read "Pending", and the check mark marks COMPLETED. */
  function RenderSegment(s: Stage, p: int): (v: SegmentView)
    ensures v.pulse <==> IsCurrentStage(s.id, p)
    ensures 0 <= v.fillPercent <= 100
    ensures v.location != "" && v.date != ""
    ensures v.location == if s.location == "" then "Pending" else s.location
    ensures v.title == s.name.GetOr("")
    ensures v.fillPercent == SegmentFill(s.id, p)
    ensures v.date == "Pending" <==> s.date in {None, Some(""), Some("Pending")}
    ensures s.date.Some? && s.date.value != "" ==> v.date == s.date.value
    ensures v.checkmark <==> s.status == Completed
    ensures v.segmentClasses == SegmentClasses(s) && v.fillClasses == FillClasses(s)
    ensures v.statusText == StatusName(s.status) && v.markerClasses == MarkerClasses(s.status)
  {
    var fill := SegmentFill(s.id, p);
    var active := IsCurrentStage(s.id, p);
    SegmentView(
      title := s.name.GetOr(""),
      location := OrPending(s.location),
      date := OrPending(s.date.GetOr("")),
      segmentClasses := SegmentClasses(s),
      fillClasses := FillClasses(s),
      fillPercent := fill,
      pulse := active && fill > 0,
      statusText := StatusName(s.status),
      markerClasses := MarkerClasses(s.status),
      checkmark := s.status == Completed)
  }

  /** The whole bar, one segment per stage in list order. At most one
      segment pulses unless two stages share an id. */
  function Render(stages: seq<Stage>, p: int): (r: seq<SegmentView>)
    ensures |r| == |stages|
    ensures forall i :: 0 <= i < |r| ==> r[i].fillPercent == SegmentFill(stages[i].id, p)
    ensures forall i, j :: 0 <= i < |r| && 0 <= j < |r| && r[i].pulse && r[j].pulse ==> stages[i].id == stages[j].id
    ensures forall i :: 0 <= i < |r| ==> (r[i].pulse <==> IsCurrentStage(stages[i].id, p))
    ensures forall i :: 0 <= i < |r| ==>
              r[i].title == stages[i].name.GetOr("") && r[i].location == OrPending(stages[i].location)
  {
    seq(|stages|, i requires 0 <= i < |stages| => RenderSegment(stages[i], p))
  }

  /** The bar titles a segment by the stage's `name`, which the seeded
      stages do not carry: every seeded segment is drawn with an empty
      title, although each seeded stage has a non-empty label. */
  lemma SeededSegmentsUntitled(now: string, p: int)
    ensures var stages := DefaultConsignment(now).progress.stages;
            forall i :: 0 <= i < |stages| ==> RenderSegment(stages[i], p).title == "" && stages[i].title != ""
  {
  }
}

=== FILE: sample_data.dfy ===
/** The fixed sample dataset: one authorization record, one client and the
    default consignment VM-7712. The seed route writes all three to the
    database, and the browser-storage seed writes the same record and
    client. */
module SampleData {
  import opened Common
  import opened Types
  import opened Derivation

  const SampleAuthRecords: seq<AuthRecord> := [AuthRecord("VMA-7712", "CN-20498", "client_001")]

  const SampleClients: seq<Client> := [
    Client("client_001", "Orchid Offshore Renewables", "Institutional Partner", "Tier-2 Access",
           Liaison("Liaison Desk A-3", "Secure Messaging"))
  ]

  function SeedStage(id: int, title: string, location: string, status: StageStatus): Stage {
    Stage(id, title, None, location, None, status)
  }

  /** The default consignment, stamped `now`. Its stored statuses and stage
      counter are the ones the derivation engine gives at 40%. */
  function DefaultConsignment(now: string): (c: Consignment)
    ensures c.consignmentId == "VM-7712" && c.transportMedium == Some(Sea) && c.updatedAt == now
    ensures c.progress.totalProgress == Some(40)
    ensures c.progress.currentStage == 2 == CurrentStage(40)
    ensures |c.progress.stages| == 4
    ensures forall i :: 0 <= i < 4 ==> c.progress.stages[i].id == i + 1
    ensures forall i :: 0 <= i < 4 ==> c.progress.stages[i].status == StatusOf(i + 1, 40)
  {
    Consignment(
      "VM-7712",
      "VMA-7*** / CN-20***",
      Progress(Some(40), 2, [
        SeedStage(1, "Extraction", "The Port of Hong Kong", Completed),
        SeedStage(2, "Regional Hub Sorting", "Singapore (SIN)", InProgress),
        SeedStage(3, "Customs/Regulatory Clearance", "Dubai (DXB)", Locked),
        SeedStage(4, "Final Dispatch", "London (LHR)", Locked)
      ]),
      Some(Sea),
      now)
  }

  /** Two seedings differ only in their time stamp. */
  lemma SeedDeterministic(a: string, b: string)
    ensures DefaultConsignment(a) == DefaultConsignment(b).(updatedAt := a)
  {
  }

  /** The sample authorization record opens the sample client. */
  lemma SampleRecordNamesSampleClient()
    ensures |SampleAuthRecords| == 1 && |SampleClients| == 1
    ensures SampleAuthRecords[0].clientId == SampleClients[0].id
  {
  }
}

=== FILE: seed_route.dfy ===
/** The reseed route: it replaces the three collections (authorization
    records, clients, consignments) by the sample dataset, one delete or
    insert at a time, and answers 200 or, when anything fails, 500. A
    failure leaves the writes done before it in place. */
module SeedRoute {
  import opened Common
  import opened Json
  import opened Types
  import opened SampleData

  /** The database: the consignments collection is keyed by the value of
      each document's `consignmentId` field. */
  datatype Db = Db(authRecords: seq<AuthRecord>, clients: seq<Client>, consignments: map<Value, Doc>)

  function OptionalField(key: string, v: Option<Value>): Doc {
    match v
    case None => map[]
    case Some(x) => map[key := x]
  }

  function StageDoc(s: Stage): Value {
    Obj(map["id" := Num(s.id), "label" := Str(s.title), "location" := Str(s.location),
            "status" := Str(StatusName(s.status))]
        + OptionalField("name", if s.name.Some? then Some(Str(s.name.value)) else None)
        + OptionalField("date", if s.date.Some? then Some(Str(s.date.value)) else None))
  }

  function StagesDoc(stages: seq<Stage>): Value {
    Arr(seq(|stages|, i requires 0 <= i < |stages| => StageDoc(stages[i])))
  }

  function ProgressDoc(p: Progress): Value {
    Obj(map["currentStage" := Num(p.currentStage), "stages" := StagesDoc(p.stages)]
        + OptionalField("totalProgress", if p.totalProgress.Some? then Some(Num(p.totalProgress.value)) else None))
  }

  /** The document a consignment record is stored as. */
  function ConsignmentDoc(c: Consignment): (d: Doc)
    ensures "consignmentId" in d && d["consignmentId"] == Str(c.consignmentId)
    ensures "updatedAt" in d && d["updatedAt"] == Str(c.updatedAt)
    ensures "_id" !in d
  {
    map["consignmentId" := Str(c.consignmentId),
        "authorizationKeyHint" := Str(c.authorizationKeyHint),
        "progress" := ProgressDoc(c.progress),
        "updatedAt" := Str(c.updatedAt)]
    + OptionalField("transportMedium", if c.transportMedium.Some? then Some(Str(MediumName(c.transportMedium.value))) else None)
  }

  /** Field readers for decoding a stored document: a missing or
      mistyped field is `None`; an optional field that is absent reads as
      `Some(None)`. */
  function StrAt(m: map<string, Value>, k: string): Option<string> {
    if k in m && m[k].Str? then Some(m[k].s) else None
  }

  function NumAt(m: map<string, Value>, k: string): Option<int> {
    if k in m && m[k].Num? then Some(m[k].n) else None
  }

  function OptStrAt(m: map<string, Value>, k: string): Option<Option<string>> {
    if k !in m then Some(None) else if m[k].Str? then Some(Some(m[k].s)) else None
  }

  function OptNumAt(m: map<string, Value>, k: string): Option<Option<int>> {
    if k !in m then Some(None) else if m[k].Num? then Some(Some(m[k].n)) else None
  }

  /** Reading a stored stage back. */
  function DocStage(v: Value): Option<Stage> {
    if !v.Obj? then None
    else
      var m := v.fields;
      var id, title, name := NumAt(m, "id"), StrAt(m, "label"), OptStrAt(m, "name");
      var location, date := StrAt(m, "location"), OptStrAt(m, "date");
      var status := if StrAt(m, "status").Some? then StatusNamed(StrAt(m, "status").value) else None;
      if id.Some? && title.Some? && name.Some? && location.Some? && date.Some? && status.Some? then
        Some(Stage(id.value, title.value, name.value, location.value, date.value, status.value))
      else None
  }

  /** Reading a stored stage list back, failing on the first bad stage. */
  function DocStages(items: seq<Value>): (r: Option<seq<Stage>>)
    ensures r.Some? ==> |r.value| == |items|
    decreases |items|
  {
    if |items| == 0 then Some([])
    else
      var first := DocStage(items[0]);
      var rest := DocStages(items[1..]);
      if first.Some? && rest.Some? then Some([first.value] + rest.value) else None
  }

  /** Reading a stored `progress` object back. */
  function DocProgress(v: Value): Option<Progress> {
    if !v.Obj? then None
    else
      var p := v.fields;
      var total, current := OptNumAt(p, "totalProgress"), NumAt(p, "currentStage");
      var stages := if "stages" in p && p["stages"].Arr? then DocStages(p["stages"].items) else None;
      if total.Some? && current.Some? && stages.Some? then Some(Progress(total.value, current.value, stages.value))
      else None
  }

  /** Reading a stored transport medium back: absent is `Some(None)`. */
  function DocMedium(d: Doc): Option<Option<Medium>> {
    if "transportMedium" !in d then Some(None)
    else if d["transportMedium"].Str? && MediumNamed(d["transportMedium"].s).Some? then
      Some(MediumNamed(d["transportMedium"].s))
    else None
  }

  /** Reading a stored consignment document back. */
  function DocConsignment(d: Doc): Option<Consignment> {
    var id, hint, stamp := StrAt(d, "consignmentId"), StrAt(d, "authorizationKeyHint"), StrAt(d, "updatedAt");
    var medium := DocMedium(d);
    var progress := if "progress" in d then DocProgress(d["progress"]) else None;
    if id.Some? && hint.Some? && stamp.Some? && medium.Some? && progress.Some? then
      Some(Consignment(id.value, hint.value, progress.value, medium.value, stamp.value))
    else None
  }

  lemma StageRoundTrip(s: Stage)
    ensures DocStage(StageDoc(s)) == Some(s)
  {
    assert StatusNamed(StatusName(s.status)) == Some(s.status);
  }

  /** A stage list stored and read back is the same list. */
  lemma {:induction false} StagesRoundTrip(stages: seq<Stage>)
    ensures DocStages(StagesDoc(stages).items) == Some(stages)
    decreases |stages|
  {
    var docs := StagesDoc(stages).items;
    if |stages| > 0 {
      StageRoundTrip(stages[0]);
      assert docs[1..] == StagesDoc(stages[1..]).items;
      StagesRoundTrip(stages[1..]);
      assert [stages[0]] + stages[1..] == stages;
    }
  }

  lemma ProgressRoundTrip(p: Progress)
    ensures DocProgress(ProgressDoc(p)) == Some(p)
  {
    StagesRoundTrip(p.stages);
  }

  /** The document the seed inserts decodes to the record it was built
      from: no field of the consignment is lost or altered in storage. */
  lemma ConsignmentDocRoundTrip(c: Consignment)
    ensures DocConsignment(ConsignmentDoc(c)) == Some(c)
  {
    var d := ConsignmentDoc(c);
    ProgressRoundTrip(c.progress);
    assert d["progress"] == ProgressDoc(c.progress);
    if c.transportMedium.Some? {
      assert MediumNamed(MediumName(c.transportMedium.value)) == Some(c.transportMedium.value);
    }
    assert DocMedium(d) == Some(c.transportMedium);
  }

  /** The top-level fields of a stored consignment: the medium only when
      the record has one. */
  lemma ConsignmentDocKeys(c: Consignment)
    ensures ConsignmentDoc(c).Keys == {"consignmentId", "authorizationKeyHint", "progress", "updatedAt"}
                                      + (if c.transportMedium.Some? then {"transportMedium"} else {})
  {
  }

  /** The six writes of a seeding, in order. */
  datatype Step = ClearAuth | InsertAuth | ClearClients | InsertClients | ClearConsignments | InsertConsignment

  const Steps: seq<Step> := [ClearAuth, InsertAuth, ClearClients, InsertClients, ClearConsignments, InsertConsignment]

  function StepIndex(s: Step): (k: nat)
    ensures k < |Steps| && Steps[k] == s
  {
    match s
    case ClearAuth => 0
    case InsertAuth => 1
    case ClearClients => 2
    case InsertClients => 3
    case ClearConsignments => 4
    case InsertConsignment => 5
  }

  function ApplyStep(db: Db, s: Step, now: string): Db {
    match s
    case ClearAuth => db.(authRecords := [])
    case InsertAuth => db.(authRecords := db.authRecords + SampleAuthRecords)
    case ClearClients => db.(clients := [])
    case InsertClients => db.(clients := db.clients + SampleClients)
    case ClearConsignments => db.(consignments := map[])
    case InsertConsignment =>
      var c := DefaultConsignment(now);
      db.(consignments := db.consignments[Str(c.consignmentId) := ConsignmentDoc(c)])
  }

  /** The database after the first `k` writes: each collection is untouched
      before its delete, empty between its delete and its insert, and holds
      exactly the sample data after its insert. */
  function ApplyFirst(db: Db, now: string, k: nat): (r: Db)
    requires k <= |Steps|
    ensures r.authRecords == if k == 0 then db.authRecords else if k == 1 then [] else SampleAuthRecords
    ensures r.clients == if k <= 2 then db.clients else if k == 3 then [] else SampleClients
    ensures r.consignments ==
              if k <= 4 then db.consignments
              else if k == 5 then map[]
              else map[Str("VM-7712") := ConsignmentDoc(DefaultConsignment(now))]
  {
    if k == 0 then db else ApplyStep(ApplyFirst(db, now, k - 1), Steps[k - 1], now)
  }

  /** Where a seeding can fail: obtaining the connection, or one write. */
  datatype Fault = NoFault | ConnectFault | WriteFault(step: Step)

  datatype Seeded = Seeded(db: Db, response: Response)

  /** `POST /api/admin/seed`. */
  function Seed(db: Db, now: string, fault: Fault): (r: Seeded)
    ensures fault == NoFault <==> r.response.status == 200
    ensures fault == NoFault <==> Succeeded(r.response)
    ensures fault != NoFault ==> r.response.status == 500 && "error" in r.response.body
    ensures fault == NoFault ==>
              && r.db.authRecords == SampleAuthRecords
              && r.db.clients == SampleClients
              && r.db.consignments == map[Str("VM-7712") := ConsignmentDoc(DefaultConsignment(now))]
    ensures fault == ConnectFault ==> r.db == db
    ensures fault.WriteFault? ==> r.db == ApplyFirst(db, now, StepIndex(fault.step))
    ensures fault.WriteFault? && StepIndex(fault.step) <= 2 ==>
              r.db.clients == db.clients && r.db.consignments == db.consignments
    ensures fault.WriteFault? && StepIndex(fault.step) <= 4 ==> r.db.consignments == db.consignments
    ensures fault.WriteFault? && StepIndex(fault.step) >= 2 ==> r.db.authRecords == SampleAuthRecords
  {
    match fault
    case NoFault =>
      Seeded(ApplyFirst(db, now, |Steps|),
             Response(200, map["success" := Bool(true), "message" := Str("Database seeded successfully")]))
    case ConnectFault =>
      Seeded(db, Response(500, map["error" := Str("Failed to seed database")]))
    case WriteFault(s) =>
      Seeded(ApplyFirst(db, now, StepIndex(s)), Response(500, map["error" := Str("Failed to seed database")]))
  }

  /** Seeding twice is the same as seeding once, apart from the stamp. */
  lemma SeedTwice(db: Db, a: string, b: string)
    ensures Seed(Seed(db, a, NoFault).db, b, NoFault).db == Seed(db, b, NoFault).db
  {
  }

  /** After a successful seeding the one stored consignment reads back as
      the sample record. */
  lemma SeededConsignmentReadsBack(db: Db, now: string)
    ensures var docs := Seed(db, now, NoFault).db.consignments;
            docs.Keys == {Str("VM-7712")} && DocConsignment(docs[Str("VM-7712")]) == Some(DefaultConsignment(now))
  {
    ConsignmentDocRoundTrip(DefaultConsignment(now));
  }
}

=== FILE: storage.dfy ===
/** The browser-storage layer of the client portal. Local storage holds three
    keys, 'vma_auth_records', 'vma_clients' and 'vma_session'; each is a slot
    of `LocalStore` that is `None` while the key is absent. JSON encoding of
    the stored values is abstracted away: a slot holds the decoded value. */
module Storage {
  import opened Common
  import opened Types
  import opened SampleData

  datatype LocalStore = LocalStore(
    authRecords: Option<seq<AuthRecord>>,
    clients: Option<seq<Client>>,
    session: Option<Session>)

  const EmptyStore: LocalStore := LocalStore(None, None, None)

  /** The signed-out session, both the stored default and the fallback. */
  const SignedOut: Session := Session(false, None, None)

  /** `seedLocalStorage()`: every absent key gets its sample value; keys
      already present are never overwritten. */
  function SeedLocalStorage(ls: LocalStore): (r: LocalStore)
    ensures r.authRecords.Some? && r.clients.Some? && r.session.Some?
    ensures ls.authRecords.Some? ==> r.authRecords == ls.authRecords
    ensures ls.clients.Some? ==> r.clients == ls.clients
    ensures ls.session.Some? ==> r.session == ls.session
    ensures ls.authRecords.None? ==> r.authRecords == Some(SampleAuthRecords)
    ensures ls.clients.None? ==> r.clients == Some(SampleClients)
    ensures ls.session.None? ==> r.session == Some(SignedOut)
  {
    LocalStore(
      if ls.authRecords.None? then Some(SampleAuthRecords) else ls.authRecords,
      if ls.clients.None? then Some(SampleClients) else ls.clients,
      if ls.session.None? then Some(SignedOut) else ls.session)
  }

  /** `getAuthRecords()`: the empty list when the key is absent. */
  function GetAuthRecords(ls: LocalStore): (r: seq<AuthRecord>)
    ensures ls.authRecords.None? ==> r == []
    ensures ls.authRecords.Some? ==> r == ls.authRecords.value
  {
    ls.authRecords.GetOr([])
  }

  /** `getClients()`: the empty list when the key is absent. */
  function GetClients(ls: LocalStore): (r: seq<Client>)
    ensures ls.clients.None? ==> r == []
    ensures ls.clients.Some? ==> r == ls.clients.value
  {
    ls.clients.GetOr([])
  }

  /** `getClientById(id)`: the first client with that id, or `null`. */
  function GetClientById(ls: LocalStore, id: string): (r: Option<Client>)
    ensures r.Some? ==> r.value.id == id
    ensures r.Some? ==> exists i :: 0 <= i < |GetClients(ls)| && GetClients(ls)[i] == r.value
                                   && forall j :: 0 <= j < i ==> GetClients(ls)[j].id != id
    ensures r.None? <==> forall i :: 0 <= i < |GetClients(ls)| ==> GetClients(ls)[i].id != id
  {
    var clients := GetClients(ls);
    match FindFirst(clients, (c: Client) => c.id == id)
    case None => None
    case Some(i) => Some(clients[i])
  }

  /** `getSession()`: the stored session, or the signed-out default. */
  function GetSession(ls: LocalStore): (r: Session)
    ensures ls.session.None? ==> r == SignedOut && !r.isAuthed && r.clientId.None? && r.lastAccess.None?
    ensures ls.session.Some? ==> r == ls.session.value
  {
    ls.session.GetOr(SignedOut)
  }

  /** `setSession(session)`: only the session key is written. */
  function SetSession(ls: LocalStore, s: Session): (r: LocalStore)
    ensures GetSession(r) == s
    ensures r.authRecords == ls.authRecords && r.clients == ls.clients
  {
    ls.(session := Some(s))
  }

  /** `clearSession()`: stores the signed-out session. */
  function ClearSession(ls: LocalStore): (r: LocalStore)
    ensures GetSession(r) == GetSession(EmptyStore)
    ensures !GetSession(r).isAuthed && GetSession(r).clientId.None? && GetSession(r).lastAccess.None?
    ensures r.authRecords == ls.authRecords && r.clients == ls.clients
  {
    SetSession(ls, SignedOut)
  }

  /** The result of `validateCredentials`; `clientId` is absent when invalid. */
  datatype Validation = Validation(valid: bool, clientId: Option<string>)

  predicate Matches(rec: AuthRecord, code: string, consignmentId: string) {
    rec.authorizationCode == code && rec.consignmentId == consignmentId
  }

  /** `validateCredentials(code, consignmentId)`: valid exactly when some
      stored record matches both values exactly, and then carrying the
      client id of the first such record. */
  function ValidateCredentials(ls: LocalStore, code: string, consignmentId: string): (r: Validation)
    ensures r.valid <==> exists i :: 0 <= i < |GetAuthRecords(ls)| && Matches(GetAuthRecords(ls)[i], code, consignmentId)
    ensures !r.valid ==> r.clientId.None?
    ensures r.valid ==> exists i :: 0 <= i < |GetAuthRecords(ls)|
                                   && Matches(GetAuthRecords(ls)[i], code, consignmentId)
                                   && r.clientId == Some(GetAuthRecords(ls)[i].clientId)
                                   && forall j :: 0 <= j < i ==> !Matches(GetAuthRecords(ls)[j], code, consignmentId)
  {
    var records := GetAuthRecords(ls);
    match FindFirst(records, (rec: AuthRecord) => Matches(rec, code, consignmentId))
    case None => Validation(false, None)
    case Some(i) => Validation(true, Some(records[i].clientId))
  }

  /** Seeding a second time changes nothing. */
  lemma SeedIdempotent(ls: LocalStore)
    ensures SeedLocalStorage(SeedLocalStorage(ls)) == SeedLocalStorage(ls)
  {
  }

  /** Clearing twice is clearing once. */
  lemma ClearIdempotent(ls: LocalStore)
    ensures ClearSession(ClearSession(ls)) == ClearSession(ls)
  {
  }

  /** On freshly seeded storage exactly the sample pair is valid, and it
      opens client_001, which the seeded clients contain. */
  lemma SeededCredentials(code: string, consignmentId: string)
    ensures var v := ValidateCredentials(SeedLocalStorage(EmptyStore), code, consignmentId);
            v.valid <==> code == "VMA-7712" && consignmentId == "CN-20498"
    ensures ValidateCredentials(SeedLocalStorage(EmptyStore), "VMA-7712", "CN-20498") == Validation(true, Some("client_001"))
    ensures GetClientById(SeedLocalStorage(EmptyStore), "client_001") == Some(SampleClients[0])
  {
  }
}

=== FILE: two_factor.dfy ===
/** The portal's verification page: the input sanitiser that keeps the first
    six digits typed, the redirect back to login when no pending client id
    is in session storage, and the submit transition that turns a pending
    client id into an authenticated session. */
module TwoFactor {
  import opened Common
  import opened Json
  import opened Types
  import opened Storage
  import opened PortalRoutes

  predicate IsDigit(c: char) {
    '0' <= c <= '9'
  }

  predicate AllDigits(s: string) {
    forall i :: 0 <= i < |s| ==> IsDigit(s[i])
  }

  /** `value.replace(/\D/g, '')`: the digits of `s`, in order. */
  function DigitsOnly(s: string): (r: string)
    ensures AllDigits(r)
    ensures |r| <= |s|
    ensures AllDigits(s) ==> r == s
    ensures |s| == 1 && !IsDigit(s[0]) ==> r == ""
  {
    if |s| == 0 then ""
    else if IsDigit(s[0]) then [s[0]] + DigitsOnly(s[1..])
    else DigitsOnly(s[1..])
  }

  /** The most digits the field keeps. */
  const OtpLength: nat := 6

  /** `value.replace(/\D/g, '').slice(0, 6)`: the first six digits typed. */
  function Sanitise(s: string): (r: string)
    ensures AllDigits(r)
    ensures |r| <= OtpLength
    ensures r <= DigitsOnly(s)
    ensures |r| == if |DigitsOnly(s)| < OtpLength then |DigitsOnly(s)| else OtpLength
  {
    var d := DigitsOnly(s);
    if |d| <= OtpLength then d else d[..OtpLength]
  }

  /** Digits typed after a non-digit still count, in order. */
  lemma {:induction false} DigitsOnlyAppend(a: string, b: string)
    ensures DigitsOnly(a + b) == DigitsOnly(a) + DigitsOnly(b)
    decreases |a|
  {
    if |a| == 0 {
      assert a + b == b;
    } else {
      assert (a + b)[1..] == a[1..] + b;
      DigitsOnlyAppend(a[1..], b);
    }
  }

  /** Once six digits have been typed, further typing changes nothing. */
  lemma SixDigitsFreeze(a: string, b: string)
    requires |DigitsOnly(a)| >= OtpLength
    ensures Sanitise(a + b) == Sanitise(a)
  {
    DigitsOnlyAppend(a, b);
    assert (DigitsOnly(a) + DigitsOnly(b))[..OtpLength] == DigitsOnly(a)[..OtpLength];
  }

  /** Sanitising twice is sanitising once. */
  lemma SanitiseIdempotent(s: string)
    ensures Sanitise(Sanitise(s)) == Sanitise(s)
  {
  }

  /** The strings sanitising leaves alone are exactly the digit strings of
      at most six characters. */
  lemma SanitiseFixedPoints(s: string)
    ensures Sanitise(s) == s <==> AllDigits(s) && |s| <= OtpLength
  {
  }

  /** One edit of the code field, the caret at its end. `maxLength={6}`
      lets the browser insert only as many characters as the field has room
      for, so a full field takes nothing; `onChange` then sanitises. */
  function Enter(code: string, text: string): (r: string)
    ensures AllDigits(code) && |code| <= OtpLength ==> AllDigits(r) && |r| <= OtpLength && code <= r
    ensures |code| < OtpLength && |code| + |text| <= OtpLength ==> r == Sanitise(code + text)
    ensures |code| >= OtpLength ==> r == code
  {
    if |code| >= OtpLength then code
    else
      var room := OtpLength - |code|;
      var inserted := if |text| <= room then text else text[..room];
      DigitsOnlyAppend(code, inserted);
      Sanitise(code + inserted)
  }

  /** Typing `keys` one key at a time into a field holding `code`. */
  function TypeKeys(code: string, keys: string): string
    decreases |keys|
  {
    if |keys| == 0 then code else TypeKeys(Enter(code, keys[..1]), keys[1..])
  }

  /** One key typed into a sanitised field gives the sanitised text typed
      so far. */
  lemma EnterOneKey(prefix: string, c: char)
    ensures Enter(Sanitise(prefix), [c]) == Sanitise(prefix + [c])
  {
    var d := DigitsOnly(prefix);
    if |d| >= OtpLength {
      SixDigitsFreeze(prefix, [c]);
    } else {
      DigitsOnlyAppend(prefix, [c]);
      DigitsOnlyAppend(d, [c]);
    }
  }

  /** Typed key by key, the field holds the sanitised text of all the keys:
      the length limit never bites before the sanitiser would cut. */
  lemma {:induction false} TypedKeysSanitise(prefix: string, keys: string)
    ensures TypeKeys(Sanitise(prefix), keys) == Sanitise(prefix + keys)
    decreases |keys|
  {
    if |keys| == 0 {
      assert prefix + keys == prefix;
    } else {
      var c := keys[0];
      calc {
        TypeKeys(Sanitise(prefix), keys);
        TypeKeys(Enter(Sanitise(prefix), keys[..1]), keys[1..]);
        { assert keys[..1] == [c]; EnterOneKey(prefix, c); }
        TypeKeys(Sanitise(prefix + [c]), keys[1..]);
        { TypedKeysSanitise(prefix + [c], keys[1..]); }
        Sanitise(prefix + [c] + keys[1..]);
        { assert prefix + [c] + keys[1..] == prefix + keys; }
        Sanitise(prefix + keys);
      }
    }
  }

  /** Typing into the empty field key by key keeps `Sanitise(keys)`. */
  lemma KeyByKey(keys: string)
    ensures TypeKeys("", keys) == Sanitise(keys)
  {
    assert Sanitise("") == "";
    TypedKeysSanitise("", keys);
    assert "" + keys == keys;
  }

  /** Pasting differs: the length limit cuts the pasted text before the
      sanitiser sees it, so separators use up room. Typed key by key
      (`KeyByKey`) the same text keeps all six digits (`TypedSeparatedCode`). */
  lemma PastedSeparatedCode(pasted: string)
    requires pasted == "1-2-3-4-5-6"
    ensures Enter("", pasted) == "123"
  {
    var first := pasted[..6];
    assert first == "1-2-3-";
    SeparatedDigits();
    assert "" + first == first;
  }

  lemma TypedSeparatedCode(pasted: string)
    requires pasted == "1-2-3-4-5-6"
    ensures Sanitise(pasted) == "123456"
  {
    var first, second := pasted[..6], pasted[6..];
    assert first == "1-2-3-" && second == "4-5-6";
    SeparatedDigits();
    assert first + second == pasted;
    DigitsOnlyAppend(first, second);
  }

  lemma SeparatedDigits()
    ensures DigitsOnly("1-2-3-") == "123" && DigitsOnly("4-5-6") == "456"
  {
    assert DigitsOnly("-") == "";
    assert DigitsOnly("3-") == "3";
    assert DigitsOnly("-3-") == "3";
    assert DigitsOnly("2-3-") == "23";
    assert DigitsOnly("-2-3-") == "23";
    assert DigitsOnly("6") == "6";
    assert DigitsOnly("-6") == "6";
    assert DigitsOnly("5-6") == "56";
    assert DigitsOnly("-5-6") == "56";
  }

  /** Where the page goes. */
  datatype Outcome = ToDashboard | ShowError(message: string) | Stay

  /** The page's state across a submit: browser storage and the pending
      client id in session storage ('temp_client_id'). */
  datatype PageState = PageState(ls: LocalStore, pending: Option<string>)

  /** `!sessionStorage.getItem('temp_client_id')`: an absent or empty id. */
  predicate NoPending(pending: Option<string>) {
    pending.None? || pending == Some("")
  }

  /** On entry the page sends a visitor without a pending id back to login. */
  predicate RedirectToLogin(st: PageState) {
    NoPending(st.pending)
  }

  /** `handleSubmit`: `reply` is the verification route's JSON answer, or
      `None` when the request or its decoding failed. A successful answer
      with a pending id signs the client in at `now` and drops the pending
      id; a failed answer shows an error; a successful answer without a
      pending id does nothing. */
  function Submit(st: PageState, reply: Option<Response>, now: string): (r: (PageState, Outcome))
    ensures r.1 == ToDashboard <==> reply.Some? && Succeeded(reply.value) && !NoPending(st.pending)
    ensures r.1 == ToDashboard ==>
              && GetSession(r.0.ls) == Session(true, st.pending, Some(now))
              && r.0.pending.None?
              && r.0.ls.authRecords == st.ls.authRecords && r.0.ls.clients == st.ls.clients
    ensures r.1 != ToDashboard ==> r.0 == st
    ensures reply.Some? && !Succeeded(reply.value) ==> r.1 == ShowError("Verification failed.")
    ensures reply.None? ==> r.1 == ShowError("An error occurred. Please try again.")
    ensures reply.Some? && Succeeded(reply.value) && NoPending(st.pending) ==> r.1 == Stay
  {
    match reply
    case None => (st, ShowError("An error occurred. Please try again."))
    case Some(data) =>
      if Succeeded(data) then
        if !NoPending(st.pending) then
          (PageState(SetSession(st.ls, Session(true, st.pending, Some(now))), None), ToDashboard)
        else (st, Stay)
      else (st, ShowError("Verification failed."))
  }

  /** Submitting the form. The field is `required`, so an empty code is
      never sent: the page stays as it is. Otherwise the typed code goes to
      the verification route and its reply drives `Submit`. */
  function SubmitForm(st: PageState, code: string, now: string): (r: (PageState, Outcome))
    ensures code == "" ==> r == (st, Stay)
    ensures code != "" && !NoPending(st.pending) ==>
              (r.1 == ToDashboard <==> code == AcceptedOtp)
    ensures r.1 == ToDashboard ==>
              GetSession(r.0.ls).isAuthed && GetSession(r.0.ls).clientId == st.pending && r.0.pending.None?
  {
    if code == "" then (st, Stay)
    else Submit(st, Some(VerifyOtp(OtpBody(code))), now)
  }

  /** Typing a code one key at a time and submitting it: the client is
      signed in exactly when the six digits kept are 123456, and typing no
      digit at all sends nothing. */
  lemma TypedCodeSubmission(st: PageState, keys: string, now: string)
    requires !NoPending(st.pending)
    ensures var code := TypeKeys("", keys);
            var r := SubmitForm(st, code, now);
            && code == Sanitise(keys)
            && (r.1 == ToDashboard <==> code == AcceptedOtp)
            && (r.1 == ToDashboard ==> GetSession(r.0.ls).isAuthed && GetSession(r.0.ls).clientId == st.pending)
            && (DigitsOnly(keys) == "" ==> r == (st, Stay))
  {
    KeyByKey(keys);
  }

  /** A visitor the page sends back to login can never be signed in from
      it: whatever the verification route answers, nothing is stored. One
      who stays is signed in by any successful answer. */
  lemma RedirectedVisitorNotSignedIn(st: PageState, reply: Option<Response>, now: string)
    ensures RedirectToLogin(st) ==> Submit(st, reply, now).1 != ToDashboard && Submit(st, reply, now).0 == st
    ensures !RedirectToLogin(st) && reply.Some? && Succeeded(reply.value) ==>
              Submit(st, reply, now).1 == ToDashboard && GetSession(Submit(st, reply, now).0.ls).isAuthed
  {
  }
}

=== FILE: types.dfy ===
/** The records of lib/types.ts, and the consignment, progress and stage
    records that the admin editor, the progress bar and the seed route share
    (reconstructed from the seed literal and from the status literals the
    code compares against). */
module Types {
  import opened Common

  datatype Liaison = Liaison(name: string, channel: string)

  datatype Client = Client(
    id: string,
    clientName: string,
    partnerType: string,
    authorizationTier: string,
    assignedLiaison: Liaison)

  /** One authorization-code / consignment-id pair and the client it opens. */
  datatype AuthRecord = AuthRecord(authorizationCode: string, consignmentId: string, clientId: string)

  /** The portal session; `None` stands for `null`. */
  datatype Session = Session(isAuthed: bool, clientId: Option<string>, lastAccess: Option<string>)

  /** Every stage status literal the code mentions: the editor derives the
      first three, the progress bar also styles the last three. */
  datatype StageStatus = Completed | InProgress | Locked | Pending | Active | Paused

  /** One journey stage. `title` is the source's `label` field (`label` is a
      Dafny keyword). `name` and `date` are optional: the seed record gives
      only `label`, while the progress bar displays `name` and `date`. */
  datatype Stage = Stage(
    id: int,
    title: string,
    name: Option<string>,
    location: string,
    date: Option<string>,
    status: StageStatus)

  /** Transport medium; `Unassigned` is the literal 'Pending'. */
  datatype Medium = Air | Sea | Land | Unassigned

  /** `totalProgress` is optional because the editor reads it with `|| 0`. */
  datatype Progress = Progress(totalProgress: Option<int>, currentStage: int, stages: seq<Stage>)

  datatype Consignment = Consignment(
    consignmentId: string,
    authorizationKeyHint: string,
    progress: Progress,
    transportMedium: Option<Medium>,
    updatedAt: string)

  function StatusName(s: StageStatus): string {
    match s
    case Completed => "COMPLETED"
    case InProgress => "IN_PROGRESS"
    case Locked => "LOCKED"
    case Pending => "PENDING"
    case Active => "ACTIVE"
    case Paused => "PAUSED"
  }

  function MediumName(m: Medium): string {
    match m
    case Air => "Air"
    case Sea => "Sea"
    case Land => "Land"
    case Unassigned => "Pending"
  }

  /** Reading a status literal back; `None` for any other text. */
  function StatusNamed(name: string): (r: Option<StageStatus>)
    ensures r.Some? ==> StatusName(r.value) == name
    ensures forall s :: StatusName(s) == name ==> r == Some(s)
  {
    if name == "COMPLETED" then Some(Completed)
    else if name == "IN_PROGRESS" then Some(InProgress)
    else if name == "LOCKED" then Some(Locked)
    else if name == "PENDING" then Some(Pending)
    else if name == "ACTIVE" then Some(Active)
    else if name == "PAUSED" then Some(Paused)
    else None
  }

  /** Reading a medium literal back; `None` for any other text. */
  function MediumNamed(name: string): (r: Option<Medium>)
    ensures r.Some? ==> MediumName(r.value) == name
    ensures forall m :: MediumName(m) == name ==> r == Some(m)
  {
    if name == "Air" then Some(Air)
    else if name == "Sea" then Some(Sea)
    else if name == "Land" then Some(Land)
    else if name == "Pending" then Some(Unassigned)
    else None
  }
}
